=== FILE: README.md ===
# The `cross` argument classifier in Dafny

This project models `parse` from `src/cli.rs` of `cross`, the front end that
re-runs a `cargo` invocation inside a container. `parse` makes one
left-to-right pass over the argument vector. It builds the list of arguments
forwarded to the container (`all`) and, at the same time, fills the
structured fields: `subcommand`, `channel`, `target`, `target_dir`,
`manifest_path` and `docker_in_docker`.

Structure:

- `Optional`: `Option`.
- `Paths`: Unix `PathBuf::join` on text paths.
- `EnvFlag`: `bool::from_str` and the `CROSS_DOCKER_IN_DOCKER` coercion.
- `Cli`: the model itself.
  - `Args`, the parse result.
  - `Host`: the working directory, the environment value, and the two
    classifiers `Target::from` and `Subcommand::from`, passed in as functions.
  - `Classify`: the ordered first-match-wins rule chain.
  - `Step`: one turn of the loop.
  - `Scan`: the loop.
  - `Parse`.
- `CliSteps`: what each rule does to the forwarded list and the fields.
- `CliPass`: properties of the whole pass.
  - Which positions are top-level tokens.
  - Which token panics or becomes the subcommand.
  - How the forwarded list relates to the input.
  - Splitting the input.
  - Re-parsing the forwarded list.
- `CliParse`: the same properties for `Parse`.
- `CliFields`: which flag decides each field (the last one wins).
- `CliExamples`: worked argument vectors.
- `SeqFacts`: small sequence lemmas used by the proofs.

Three consequences of the code are worth stating up front:

- A `+NAME` token sets the channel and is not forwarded. It has its own
  `else if` branch and never reaches the catch-all.
  - So the forwarded list can be shorter than the number of non-empty input
    tokens (`CliExamples.ChannelThenSubcommand`).
  - A bare `+` sets the channel to the empty name (`CliExamples.BareChannel`).
- `split_at(1)` panics on a top-level token whose first character takes more
  than one byte in UTF-8. The model keeps that path: `Parse` returns
  `Panicked(token)`, and the rule that leads there is `Unsplittable`
  (`CliParse.ParsePanicsAtFirstUnsplittable`).
- Re-parsing the forwarded list gives the same list and the same fields,
  except that no channel is set and the target directory reads `/target`
  (`CliParse.ParseReparse`).

## Model

| member | source | states |
|---|---|---|
| Cli.Classify | src/cli.rs:30-78 | The rule chain's first match: empty token ⇔ skip; first character `+` ⇔ channel; first character longer than one byte ⇔ the `split_at(1)` panic; a catch-all token is non-empty, starts with a one-byte character and not with `+` |
| Cli.AfterFirst | src/cli.rs:41-43 | `splitn(2, '=').nth(1)`: none exactly when there is no separator, otherwise the suffix after the first separator, whose prefix holds no separator |
| Cli.StartsWithConcat | src/cli.rs:40 | `starts_with`: a prefix glued in front of any text is recognised, and stripping it gives the text back |
| Cli.StartsWithSplit | src/cli.rs:40 | `starts_with`: a text that starts with a prefix is that prefix followed by the rest |
| Cli.IsSingleByte | src/cli.rs:47 | Offset 1 is a character boundary, so `split_at(1)` succeeds, exactly when the first character's UTF-8 encoding is one byte long |
| Cli.Eligible | src/cli.rs:73 | The tokens the catch-all may record as the subcommand are exactly the non-empty ones whose first character is one byte long and is neither `-` nor `+` |
| Cli.ResolveManifest | src/cli.rs:38 | `current_dir().map(join)`: present exactly when the working directory is; then an absolute working directory gives an absolute manifest path, and an absolute value ignores the directory altogether |
| Cli.Step | src/cli.rs:29-78 | One turn halts exactly on an unsplittable token, naming it. Otherwise it advances by `Width`, changes the subcommand only for an eligible token while none is set, and leaves the environment flag alone |
| Cli.Scan | src/cli.rs:29-79 | Once set, the subcommand is never replaced. The loop never touches the environment flag |
| Cli.StepExtends | src/cli.rs:29-78 | A turn only appends to the forwarded list, at most one element per token it consumes |
| Cli.ScanExtends | src/cli.rs:29-79 | The loop only appends to the forwarded list, at most one element per input token |
| Cli.ScanPanicsOnInput | src/cli.rs:47 | The loop panics only on one of its own input tokens, and only on one whose first character is longer than one byte |
| Cli.Initial | src/cli.rs:9-25 | The seven fields of `Args` (the `PathBuf` fields as text) start as the declarations set them: nothing is forwarded and every optional field is unset. The environment flag, computed only after the loop, holds `false` until then |
| Cli.Parse | src/cli.rs:19-95 | `docker_in_docker` is true exactly when the variable reads `true`, whatever the tokens: the loop leaves the flag alone and it is read only after the loop. The forwarded list is never longer than the input. A panic names an unsplittable input token. Without unsplittable tokens there is no panic |
| EnvFlag.ParseBool | src/cli.rs:83 | `bool::from_str` accepts exactly the two literals `true` and `false`, each giving the boolean it names; any other text is an error |
| EnvFlag.DockerInDocker | src/cli.rs:82-84 | The flag is true exactly when the variable is present and reads `true`; absence, `false` and any other text give false |
| Paths.Join | src/cli.rs:38 | An absolute path replaces the base. Otherwise the base is a prefix and the path a suffix, at most one separator is added, and an absolute base stays absolute |
| Paths.JoinSeparatesOnce | src/cli.rs:38 | Joining a relative path to a non-empty base adds a separator exactly when the base does not already end in one |
| CliSteps.AfterFirstOfPrefix | src/cli.rs:41-43 | After a prefix whose only separator is its last character, `splitn(2, sep).nth(1)` is the rest of the text |
| CliSteps.InlineValue | src/cli.rs:41-43 | The value of `--manifest-path=V`, `--target=V` or `--target-dir=V` is V, even when V holds `=` |
| CliSteps.FlagRules | src/cli.rs:33-67 | No earlier rule shadows a flag: each of the six flag forms reaches its own branch |
| CliSteps.TakesValueExactly | src/cli.rs:33-61 | The tokens that consume the next token as their value are exactly `--manifest-path`, `--target` and `--target-dir`, compared as whole texts |
| CliSteps.EmptyTokenSkipped | src/cli.rs:30-32 | An empty top-level token adds nothing and changes no field |
| CliSteps.ChannelTokenNotForwarded | src/cli.rs:47-48 | A `+` token sets the channel to its remainder (empty for a bare `+`) and is not forwarded |
| CliSteps.ManifestPathPairForwarded | src/cli.rs:33-39 | `--manifest-path V` forwards both tokens, consumes V even when it is empty or starts with `-`, and sets the manifest path to V resolved against the working directory |
| CliSteps.ManifestPathInlineForwarded | src/cli.rs:40-46 | `--manifest-path=V` is forwarded unchanged and sets the manifest path to V resolved against the working directory |
| CliSteps.TargetPairForwarded | src/cli.rs:49-54 | `--target V` forwards both tokens and sets the target to V's descriptor |
| CliSteps.TargetInlineForwarded | src/cli.rs:55-60 | `--target=V` is forwarded unchanged and sets the target to V's descriptor |
| CliSteps.TargetDirPairRewritten | src/cli.rs:61-66 | `--target-dir V` forwards the flag and `/target` in place of V, and stores V |
| CliSteps.TargetDirInlineRewritten | src/cli.rs:67-71 | `--target-dir=V` is replaced by `--target-dir=/target`, and V is stored |
| CliSteps.DanglingFlagForwarded | src/cli.rs:33-35 | A two-token flag with no next token is still forwarded and changes no field |
| CliSteps.PassthroughForwarded | src/cli.rs:72-78 | A catch-all token is forwarded unchanged and becomes the subcommand only when it does not start with `-` and none is set |
| CliPass.HeadsFrom | src/cli.rs:29 | The top-level positions from `i`: none exactly at the end, the first is `i`, all lie inside the input |
| CliPass.HeadsAreTurnsApart | src/cli.rs:33-35 | Consecutive top-level positions are one turn apart (two tokens for a flag with a value, one otherwise), and the last turn ends at the end of the input |
| CliPass.HeadGap | src/cli.rs:29-35 | The next top-level position is one turn after the current one |
| CliPass.LastHeadEnds | src/cli.rs:29-35 | The last turn ends exactly at the end of the input |
| CliPass.HeadsIncrease | src/cli.rs:29 | Top-level positions increase |
| CliPass.ValueIsNotHead | src/cli.rs:33-35 | The value a two-token flag consumes with `args.next()` is never a top-level token, so it is never classified |
| CliPass.ScanAt | src/cli.rs:29-78 | Scanning from a top-level position is one turn, then the scan from the next top-level position, with the subcommand rule of that turn |
| CliPass.ScanAtUnsplittable | src/cli.rs:47 | A scan reaching an unsplittable top-level token panics on it |
| CliPass.FirstTurnWhere | src/cli.rs:29-79 | The first position found by walking turn by turn lies inside the input |
| CliPass.FirstTurnIsFirstHead | src/cli.rs:29-79 | The walk finds exactly the first top-level token satisfying the predicate, or reports that none does |
| CliPass.PanicsAtFirstUnsplittable | src/cli.rs:47 | The pass panics exactly when some top-level token is unsplittable, and on the first one |
| CliPass.SubcommandIsFirstEligible | src/cli.rs:73-75 | The subcommand is the first eligible top-level token's class, unless one was already set |
| CliPass.TurnSources | src/cli.rs:29-78 | The positions one turn forwards lie inside that turn and increase |
| CliPass.Sources | src/cli.rs:29-79 | The positions the pass forwards are at most as many as the tokens and lie inside the input |
| CliPass.SourcesInOrder | src/cli.rs:29-79 | The forwarded positions increase: the forwarded list keeps input order |
| CliPass.StepAppendsChunk | src/cli.rs:29-78 | A turn appends exactly its chunk: nothing, the token, the pair, or the `/target` forms |
| CliPass.TurnAppends | src/cli.rs:29-78 | The turn at a top-level position appends its chunk and leaves the rest of the pass to the next position |
| CliPass.Chunk | src/cli.rs:34-77 | What one turn pushes to `all`: nothing exactly for an empty or `+` token or an unsplittable token (whose turn panics), at most one element per consumed token, and the turn's own tokens verbatim except for the `--target-dir` forms |
| CliPass.ChunkForwards | src/cli.rs:33-78 | Each element one turn appends is its input token, or `/target` for a `--target-dir` value, or `--target-dir=/target` for a `--target-dir=` token |
| CliPass.Output | src/cli.rs:29-79 | The pushes of a whole pass defined from the input alone; never longer than the input |
| CliPass.ScanEmitsOutput | src/cli.rs:29-79 | A pass that does not panic appends exactly the chunks of its turns, an independent definition from the input alone |
| CliPass.OutputFromSources | src/cli.rs:29-79 | Each element of that list stands for the input token at the matching forwarded position |
| CliPass.ForwardedFromSources | src/cli.rs:29-79 | Each forwarded element stands for the input token at the matching forwarded position |
| CliPass.StepIgnoresLaterTokens | src/cli.rs:29-35 | A turn only looks at the tokens it consumes |
| CliPass.ScanConcat | src/cli.rs:29-79 | The pass over `a + b` is the pass over `a` then the pass over `b`, when `a` does not end waiting for a flag value |
| CliPass.EmptyTokenSkippedAnywhere | src/cli.rs:30-32 | Inserting an empty token at any top-level position changes nothing |
| CliPass.EmptyTokensOnly | src/cli.rs:30-32 | A pass over empty tokens only leaves its state as it was |
| CliPass.StepManifest | src/cli.rs:33-46 | A turn sets the manifest path to the resolution of the value it assigns (the token after a bare `--manifest-path`, or the text after the first `=` of a `--manifest-path=` token) and leaves it alone when it assigns none |
| CliPass.ManifestPathResolved | src/cli.rs:33-46 | The manifest path after a pass is the resolution of the value the last assigning top-level turn gives, defined from the input alone, or the one before when no turn assigns one |
| CliPass.ReplayTurn | src/cli.rs:29-78 | Re-parsing what one turn forwarded puts the second pass in the state matching the first |
| CliPass.ReparseForwarded | src/cli.rs:29-79 | Re-parsing the forwarded list reproduces it and the subcommand, target and manifest path, with the target directory relocated |
| CliParse.ParsePanicsAtFirstUnsplittable | src/cli.rs:47 | `parse` panics exactly when a top-level token starts with a character longer than one byte, on the first one |
| CliParse.ParseSubcommand | src/cli.rs:73-75 | The subcommand is the first top-level catch-all token not starting with `-`, or none |
| CliParse.ParseForwarded | src/cli.rs:29-79 | `all` is the chunks of the turns; each element stands for an input token, in input order |
| CliParse.ParseReparse | src/cli.rs:19-95 | Parsing `all` again gives `all` and the same fields, except no channel, and a host target directory reads, after forwarding, as the container directory `/target` |
| CliParse.ParseForwardedIsFixpoint | src/cli.rs:19-95 | The forwarded list of the forwarded list is itself |
| CliParse.ParseSkipsEmptyToken | src/cli.rs:30-32 | An empty top-level token anywhere changes nothing |
| CliParse.ParseOnlyEmptyTokens | src/cli.rs:20-32 | A vector of empty tokens only, the empty vector included, parses to the initial state with the environment flag filled in |
| CliParse.ParseManifestPath | src/cli.rs:33-46 | The manifest path is the value of the last top-level turn that assigns one, resolved against the working directory, and unset when no turn assigns one; so unset without a working directory and absolute when the directory is |
| CliFields.TurnKeepsFields | src/cli.rs:33-78 | A turn changes a field only when it assigns it: its token is one of that field's flags and, for a bare flag, a value follows |
| CliFields.NoTurnIsNone | src/cli.rs:29-79 | "No top-level token satisfies p" is the turn-by-turn walk finding nothing |
| CliFields.FieldsKept | src/cli.rs:29-79 | A field that no top-level turn assigns keeps its value through the pass; a trailing bare flag assigns nothing |
| CliFields.NoTurnNoAssignment | src/cli.rs:33-35 | A field no top-level token names is not assigned either, so the assignment premise is the weaker one |
| CliFields.SplitAround | src/cli.rs:29-79 | A parse of `a + c + b` is the pass over `a`, then over `c + b` |
| CliFields.LastChannelWins | src/cli.rs:47-48 | A later `+` token overwrites the channel: when no later top-level `+` token follows, the channel is the last one's remainder |
| CliFields.LastManifestPathPairWins | src/cli.rs:33-39 | After `--manifest-path V` with no later top-level turn assigning the manifest path (a trailing bare flag does not), the manifest path is V resolved against the working directory, overriding earlier values |
| CliFields.LastManifestPathInlineWins | src/cli.rs:40-46 | After `--manifest-path=V` with no later top-level turn assigning the manifest path (a trailing bare flag does not), the manifest path is V resolved against the working directory |
| CliFields.LastTargetPairWins | src/cli.rs:49-54 | After `--target V` with no later top-level turn assigning the target (a trailing bare flag does not), the target is V's descriptor |
| CliFields.LastTargetInlineWins | src/cli.rs:55-60 | After `--target=V` with no later top-level turn assigning the target (a trailing bare flag does not), the target is V's descriptor |
| CliFields.LastTargetDirPairWins | src/cli.rs:61-66 | After `--target-dir V` with no later top-level turn assigning the target directory (a trailing bare flag does not), the target directory is V |
| CliFields.LastTargetDirInlineWins | src/cli.rs:67-71 | After `--target-dir=V` with no later top-level turn assigning the target directory (a trailing bare flag does not), the target directory is V |
| CliExamples.ChannelThenSubcommand | src/cli.rs:47-48 | `+NAME SUB` forwards only SUB, with channel NAME and SUB's class as subcommand |
| CliExamples.BareChannel | src/cli.rs:47-48 | `+` alone sets the empty channel and forwards nothing |
| CliExamples.TargetDirRewritten | src/cli.rs:61-66 | `--target-dir DIR SUB` forwards `--target-dir /target SUB` and stores DIR |
| CliExamples.ManifestPathInCwd | src/cli.rs:40-46 | `--manifest-path=PATH` in directory D is forwarded unchanged with manifest path D joined with PATH |
| CliExamples.WorkJoin | src/cli.rs:38 | `rel/Cargo.toml` joined to `/work` is `/work/rel/Cargo.toml` |
| CliExamples.TargetByName | src/cli.rs:49-54 | `--target NAME` is forwarded unchanged and the target is the resolver's descriptor for NAME |
| CliExamples.TrailingTargetIgnored | src/cli.rs:49-54 | `--target NAME --target` forwards all three tokens and keeps NAME's descriptor: the trailing bare flag assigns nothing |
| CliExamples.NoSubcommand | src/cli.rs:67-71 | `--target-dir=DIR` alone leaves no subcommand and forwards `--target-dir=/target` |
| CliExamples.NonAsciiPanics | src/cli.rs:47 | Any leading top-level token whose first character is `é` (two bytes in UTF-8) makes `parse` panic on that token, whatever follows |

## Left out

- Reading the process state is not modelled: the argument vector, the
  working directory and `CROSS_DOCKER_IN_DOCKER` are parameters.
  - An unavailable working directory is `None`.
  - An absent or non-Unicode variable is `None`.
- `env::args` panicking on a non-Unicode argument is not modelled: arguments
  are character strings.
- `Target::from`, `TargetList` and `Subcommand::from` are left abstract: they
  live outside `src/cli.rs` and are functions in `Host`.
- `PathBuf` is kept as text and `PathBuf::from` is the identity. `join`
  follows the Unix rules only, with no Windows prefixes and no
  normalisation.
- The `Debug` derive on `Args` is not modelled.
- Only one UTF-8 property of `split_at(1)` is kept: whether the first
  character is one byte long (ASCII). Byte offsets are not modelled.

=== FILE: cli.dfy ===
/** The argument classifier of `src/cli.rs`: one left-to-right pass over the
    argument vector that builds the list forwarded to the container (`all`)
    and fills the structured fields at the same time.

    The process inputs are parameters: the argument vector (without the
    program name), the working directory and the `CROSS_DOCKER_IN_DOCKER`
    variable, each possibly unavailable. `Target::from` and
    `Subcommand::from` live outside this unit and are passed in as functions
    into the abstract types `T` (target descriptor) and `S` (subcommand). */
module Cli {
  import opened Optional
  import Paths
  import EnvFlag
  import SeqFacts

  const ManifestPathFlag: string := "--manifest-path"
  const TargetFlag: string := "--target"
  const TargetDirFlag: string := "--target-dir"

  /** The container-side directory that replaces a host `--target-dir`. */
  const ContainerTargetDir: string := "/target"

  /** The parse result (`Args` in the source). Paths are kept as text. */
  datatype Args<T, S> = Args(
    all: seq<string>,
    subcommand: Option<S>,
    channel: Option<string>,
    target: Option<T>,
    targetDir: Option<string>,
    dockerInDocker: bool,
    manifestPath: Option<string>)

  /** What the parser may ask of its surroundings. */
  datatype Host<T, S> = Host(
    cwd: Option<string>,
    dockerInDockerVar: Option<string>,
    resolveTarget: string -> T,
    classifySubcommand: string -> S)

  /** A parse either completes or panics: `split_at(1)` panics on a token
      whose first character takes more than one byte in UTF-8. */
  datatype Outcome<T, S> = Parsed(args: Args<T, S>) | Panicked(token: string)

  /** The branch of the token loop a top-level token takes, first match wins. */
  datatype Rule =
    | Skip               // empty token
    | ManifestPathPair   // `--manifest-path VALUE`
    | ManifestPathInline // `--manifest-path=VALUE`
    | Unsplittable       // first character not one byte long: split_at(1) panics
    | Channel            // `+NAME`
    | TargetPair         // `--target VALUE`
    | TargetInline       // `--target=VALUE`
    | TargetDirPair      // `--target-dir VALUE`
    | TargetDirInline    // `--target-dir=VALUE`
    | Passthrough        // anything else

  /** `str::starts_with` for a text prefix. */
  predicate StartsWith(s: string, prefix: string) {
    |prefix| <= |s| && s[..|prefix|] == prefix
  }

  /** Any text starts with a prefix glued in front of it, and stripping the
      prefix gives the text back. */
  lemma StartsWithConcat(prefix: string, rest: string)
    ensures StartsWith(prefix + rest, prefix)
    ensures (prefix + rest)[|prefix|..] == rest
  {
  }

  /** A text that starts with a prefix is that prefix followed by the rest. */
  lemma StartsWithSplit(s: string, prefix: string)
    requires StartsWith(s, prefix)
    ensures s == prefix + s[|prefix|..]
  {
  }

  /** The number of bytes UTF-8 takes for a character (section 3 of
      RFC 3629). */
  function Utf8Width(c: char): (n: nat)
    ensures 1 <= n <= 4
  {
    if c as int < 0x80 then 1
    else if c as int < 0x800 then 2
    else if c as int < 0x1_0000 then 3
    else 4
  }

  /** Whether byte offset 1 is a character boundary of a token starting
      with `c`, that is, whether `split_at(1)` succeeds on it. */
  function IsSingleByte(c: char): (r: bool)
    ensures r <==> Utf8Width(c) == 1
  {
    c as int < 0x80
  }

  function Classify(tok: string): (r: Rule)
    ensures r.Skip? <==> tok == ""
    ensures r.Channel? <==> tok != "" && tok[0] == '+'
    ensures r.Unsplittable? <==> tok != "" && !IsSingleByte(tok[0])
    ensures r.Passthrough? ==> tok != "" && IsSingleByte(tok[0]) && tok[0] != '+'
  {
    if tok == "" then Skip
    else if tok == ManifestPathFlag then ManifestPathPair
    else if StartsWith(tok, ManifestPathFlag + "=") then ManifestPathInline
    else if !IsSingleByte(tok[0]) then Unsplittable
    else if tok[0] == '+' then Channel
    else if tok == TargetFlag then TargetPair
    else if StartsWith(tok, TargetFlag + "=") then TargetInline
    else if tok == TargetDirFlag then TargetDirPair
    else if StartsWith(tok, TargetDirFlag + "=") then TargetDirInline
    else Passthrough
  }

  /** The rules that consume the following token as their value. */
  predicate TakesValue(r: Rule) {
    r.ManifestPathPair? || r.TargetPair? || r.TargetDirPair?
  }

  /** A token the catch-all branch may record as the subcommand: exactly
      the non-empty ones whose first character is one byte long and is
      neither `-` nor `+`. */
  function Eligible(tok: string): (r: bool)
    ensures r <==> tok != "" && IsSingleByte(tok[0]) && tok[0] != '-' && tok[0] != '+'
  {
    Classify(tok).Passthrough? && tok[0] != '-'
  }

  /** `s.splitn(2, sep).nth(1)`: the text after the first `sep`, if any. */
  function AfterFirst(s: string, sep: char): (r: Option<string>)
    decreases |s|
    ensures r.None? <==> sep !in s
    ensures r.Some? ==> |r.value| < |s| && r.value == s[|s| - |r.value|..]
    ensures r.Some? ==> s[|s| - |r.value| - 1] == sep && sep !in s[..|s| - |r.value| - 1]
  {
    if |s| == 0 then None
    else if s[0] == sep then Some(s[1..])
    else
      var r := AfterFirst(s[1..], sep);
      if r.Some? then
        var k := |s| - |r.value| - 1;
        assert s[1..][..k - 1] == s[1..k];
        assert s[..k] == [s[0]] + s[1..k];
        r
      else r
  }

  /** `env::current_dir().ok().map(|cwd| cwd.join(p))`. */
  function ResolveManifest(cwd: Option<string>, p: string): (r: Option<string>)
    ensures r.Some? <==> cwd.Some?
    ensures r.Some? ==> r.value == Paths.Join(cwd.value, p)
    ensures r.Some? && Paths.IsAbsolute(cwd.value) ==> Paths.IsAbsolute(r.value)
    ensures r.Some? && Paths.IsAbsolute(p) ==> r.value == p
  {
    match cwd
    case None => None
    case Some(dir) => Some(Paths.Join(dir, p))
  }

  /** The number of tokens one turn of the loop consumes. */
  function Width(toks: seq<string>): (w: nat)
    requires 0 < |toks|
    ensures 1 <= w <= 2 && w <= |toks|
    ensures w == 2 <==> TakesValue(Classify(toks[0])) && 2 <= |toks|
  {
    if TakesValue(Classify(toks[0])) && 2 <= |toks| then 2 else 1
  }

  /** One turn of the token loop. */
  datatype Turn<T, S> = Advance(width: nat, next: Args<T, S>) | Halt(token: string)

  function Step<T, S>(toks: seq<string>, acc: Args<T, S>, host: Host<T, S>): (r: Turn<T, S>)
    requires 0 < |toks|
    ensures r.Halt? <==> Classify(toks[0]).Unsplittable?
    ensures r.Halt? ==> r.token == toks[0]
    ensures r.Advance? ==> r.width == Width(toks)
    ensures r.Advance? && !Eligible(toks[0]) ==> r.next.subcommand == acc.subcommand
    ensures r.Advance? && acc.subcommand.Some? ==> r.next.subcommand == acc.subcommand
    ensures r.Advance? ==> r.next.dockerInDocker == acc.dockerInDocker
  {
    var tok := toks[0];
    match Classify(tok)
    case Skip => Advance(1, acc)
    case ManifestPathPair =>
      if 2 <= |toks| then
        Advance(2, acc.(all := acc.all + [tok, toks[1]],
                        manifestPath := ResolveManifest(host.cwd, toks[1])))
      else Advance(1, acc.(all := acc.all + [tok]))
    case ManifestPathInline =>
      var mp := match AfterFirst(tok, '=')
                case None => None
                case Some(p) => ResolveManifest(host.cwd, p);
      Advance(1, acc.(all := acc.all + [tok], manifestPath := mp))
    case Unsplittable => Halt(tok)
    case Channel => Advance(1, acc.(channel := Some(tok[1..])))
    case TargetPair =>
      if 2 <= |toks| then
        Advance(2, acc.(all := acc.all + [tok, toks[1]],
                        target := Some(host.resolveTarget(toks[1]))))
      else Advance(1, acc.(all := acc.all + [tok]))
    case TargetInline =>
      var t := match AfterFirst(tok, '=')
               case None => None
               case Some(s) => Some(host.resolveTarget(s));
      Advance(1, acc.(all := acc.all + [tok], target := t))
    case TargetDirPair =>
      if 2 <= |toks| then
        Advance(2, acc.(all := acc.all + [tok, ContainerTargetDir],
                        targetDir := Some(toks[1])))
      else Advance(1, acc.(all := acc.all + [tok]))
    case TargetDirInline =>
      (match AfterFirst(tok, '=')
       case None => Advance(1, acc)
       case Some(td) =>
         Advance(1, acc.(all := acc.all + [TargetDirFlag + "=" + ContainerTargetDir],
                         targetDir := Some(td))))
    case Passthrough =>
      var sc := if tok[0] != '-' && acc.subcommand.None?
                then Some(host.classifySubcommand(tok))
                else acc.subcommand;
      Advance(1, acc.(all := acc.all + [tok], subcommand := sc))
  }

  /** The token loop, from accumulator `acc` over the remaining tokens. */
  function Scan<T, S>(toks: seq<string>, acc: Args<T, S>, host: Host<T, S>): (r: Outcome<T, S>)
    decreases |toks|
    ensures r.Parsed? && acc.subcommand.Some? ==> r.args.subcommand == acc.subcommand
    ensures r.Parsed? ==> r.args.dockerInDocker == acc.dockerInDocker
  {
    if |toks| == 0 then Parsed(acc)
    else
      match Step(toks, acc, host)
      case Halt(t) => Panicked(t)
      case Advance(w, next) =>
        Scan(toks[w..], next, host)
  }

  /** One turn only appends to the forwarded list, at most one element per
      token it consumes. */
  lemma StepExtends<T, S>(toks: seq<string>, acc: Args<T, S>, host: Host<T, S>)
    requires 0 < |toks| && Step(toks, acc, host).Advance?
    ensures var st := Step(toks, acc, host);
            |acc.all| <= |st.next.all| <= |acc.all| + st.width
            && st.next.all[..|acc.all|] == acc.all
  {
    var st := Step(toks, acc, host);
    var c := st.next.all[|acc.all|..];
    assert st.next.all == acc.all + c;
    SeqFacts.AppendedTail(acc.all, c);
  }

  /** The pass only appends to the forwarded list, at most one element per
      input token. */
  lemma {:induction false} ScanExtends<T, S>(toks: seq<string>, acc: Args<T, S>, host: Host<T, S>)
    requires Scan(toks, acc, host).Parsed?
    ensures var r := Scan(toks, acc, host).args;
            |acc.all| <= |r.all| <= |acc.all| + |toks| && r.all[..|acc.all|] == acc.all
    decreases |toks|
  {
    if 0 < |toks| {
      var st := Step(toks, acc, host);
      StepExtends(toks, acc, host);
      ScanExtends(toks[st.width..], st.next, host);
      var r := Scan(toks[st.width..], st.next, host).args;
      SeqFacts.PrefixOfPrefix(acc.all, st.next.all, r.all);
    }
  }

  /** What the pass from `acc` appends to the forwarded list. */
  function Emitted<T, S>(toks: seq<string>, acc: Args<T, S>, host: Host<T, S>): seq<string>
    requires Scan(toks, acc, host).Parsed?
  {
    ScanExtends(toks, acc, host);
    Scan(toks, acc, host).args.all[|acc.all|..]
  }

  /** When a pass from `acc` over `a` goes on as a pass from `next` over
      `b`, what it appends is what `next` added to `acc` followed by what
      the pass over `b` appends. */
  lemma EmittedThrough<T, S>(a: seq<string>, acc: Args<T, S>, b: seq<string>, next: Args<T, S>, host: Host<T, S>)
    requires Scan(b, next, host).Parsed? && Scan(a, acc, host) == Scan(b, next, host)
    requires |acc.all| <= |next.all| && next.all[..|acc.all|] == acc.all
    ensures Emitted(a, acc, host) == next.all[|acc.all|..] + Emitted(b, next, host)
  {
    ScanExtends(b, next, host);
    SeqFacts.SplitAfterPrefix(Scan(b, next, host).args.all, next.all, |acc.all|);
  }

  /** The pass panics only on one of its own tokens, and only on one whose
      first character takes more than one byte. */
  lemma {:induction false} ScanPanicsOnInput<T, S>(toks: seq<string>, acc: Args<T, S>, host: Host<T, S>)
    requires Scan(toks, acc, host).Panicked?
    ensures var t := Scan(toks, acc, host).token;
            t in toks && Classify(t).Unsplittable?
    decreases |toks|
  {
    var st := Step(toks, acc, host);
    if st.Advance? {
      ScanPanicsOnInput(toks[st.width..], st.next, host);
      SeqFacts.InDrop(toks, st.width, Scan(toks, acc, host).token);
    }
  }

  /** The state before the first token: nothing forwarded, no field set,
      and the flag not yet read. */
  function Initial<T, S>(): (r: Args<T, S>)
    ensures r.all == [] && r.subcommand.None? && r.channel.None? && r.target.None?
    ensures r.targetDir.None? && r.manifestPath.None? && !r.dockerInDocker
  {
    Args([], None, None, None, None, false, None)
  }

  /** `parse`: the token loop, then the docker-in-docker flag. */
  function Parse<T, S>(argv: seq<string>, host: Host<T, S>): (r: Outcome<T, S>)
    ensures r.Parsed? ==> (r.args.dockerInDocker <==> host.dockerInDockerVar == Some("true"))
    ensures r.Parsed? ==> |r.args.all| <= |argv|
    ensures r.Panicked? ==> r.token in argv && Classify(r.token).Unsplittable?
    ensures (forall j :: 0 <= j < |argv| ==> !Classify(argv[j]).Unsplittable?) ==> r.Parsed?
  {
    var r := Scan(argv, Initial(), host);
    if r.Panicked? then
      ScanPanicsOnInput(argv, Initial(), host);
      Panicked(r.token)
    else
      ScanExtends(argv, Initial(), host);
      Parsed(r.args.(dockerInDocker := EnvFlag.DockerInDocker(host.dockerInDockerVar)))
  }
}

=== FILE: cli_examples.dfy ===
/** Concrete argument vectors and what `parse` makes of them. The target
    resolver and the subcommand classifier stay abstract: the results name
    whatever they return. */
module CliExamples {
  import opened Optional
  import EnvFlag
  import Paths
  import opened Cli
  import CliSteps
  import CliParse
  import SeqFacts

  /** The flag as read from the host. */
  function Flag<T, S>(host: Host<T, S>): bool {
    EnvFlag.DockerInDocker(host.dockerInDockerVar)
  }

  /** `+NAME SUB` (as in `+nightly build`): the channel is recorded and
      the `+` token is not forwarded, so the forwarded list is shorter than
      the non-empty input. */
  lemma ChannelThenSubcommand<T, S>(name: string, sub: string, host: Host<T, S>)
    requires Eligible(sub)
    ensures Parse(["+" + name, sub], host) ==
            Parsed(Args([sub], Some(host.classifySubcommand(sub)), Some(name),
                        None, None, Flag(host), None))
  {
    var tok := "+" + name;
    CliParse.ParseIsScan([tok, sub], host);
    assert [tok, sub] == [tok] + [sub];
    CliSteps.ChannelTokenNotForwarded(tok, [sub], Initial<T, S>(), host);
    assert tok[1..] == name;
    assert [sub] == [sub] + [];
    CliSteps.PassthroughForwarded(sub, [], Initial<T, S>().(channel := Some(name)), host);
  }

  /** A bare `+` sets the channel to the empty name. */
  lemma BareChannel<T, S>(host: Host<T, S>)
    ensures Parse(["+"], host) == Parsed(Initial<T, S>().(channel := Some(""), dockerInDocker := Flag(host)))
  {
    CliParse.ParseIsScan(["+"], host);
    assert ["+"] == ["+"] + [];
    CliSteps.ChannelTokenNotForwarded("+", [], Initial<T, S>(), host);
  }

  /** `--target-dir DIR SUB` (as in `--target-dir /home/u/out test`): the
      host directory is stored and the container directory is forwarded in
      its place. */
  lemma TargetDirRewritten<T, S>(dir: string, sub: string, host: Host<T, S>)
    requires Eligible(sub)
    ensures Parse([TargetDirFlag, dir] + [sub], host) ==
            Parsed(Args([TargetDirFlag, ContainerTargetDir] + [sub], Some(host.classifySubcommand(sub)),
                        None, None, Some(dir), Flag(host), None))
  {
    var acc1 := Initial<T, S>().(all := [TargetDirFlag, ContainerTargetDir], targetDir := Some(dir));
    TargetDirFirst(dir, [sub], host);
    SubcommandLast(sub, acc1, host);
    ParseOf([TargetDirFlag, dir] + [sub], host, acc1.(all := acc1.all + [sub], subcommand := Some(host.classifySubcommand(sub))));
  }

  lemma TargetDirFirst<T, S>(dir: string, rest: seq<string>, host: Host<T, S>)
    ensures Scan([TargetDirFlag, dir] + rest, Initial(), host) ==
            Scan(rest, Initial<T, S>().(all := [TargetDirFlag, ContainerTargetDir], targetDir := Some(dir)), host)
  {
    CliSteps.TargetDirPairRewritten(dir, rest, Initial<T, S>(), host);
    SeqFacts.ConcatEmpty(Initial<T, S>().all, [TargetDirFlag, ContainerTargetDir]);
  }

  lemma SubcommandLast<T, S>(sub: string, acc: Args<T, S>, host: Host<T, S>)
    requires Eligible(sub) && acc.subcommand.None?
    ensures Scan([sub], acc, host) == Parsed(acc.(all := acc.all + [sub], subcommand := Some(host.classifySubcommand(sub))))
  {
    assert [sub] == [sub] + [];
    CliSteps.PassthroughForwarded(sub, [], acc, host);
  }

  /** `Parse` of a vector whose pass ends in `r`. */
  lemma ParseOf<T, S>(argv: seq<string>, host: Host<T, S>, r: Args<T, S>)
    requires Scan(argv, Initial(), host) == Parsed(r)
    ensures Parse(argv, host) == Parsed(r.(dockerInDocker := Flag(host)))
  {
    CliParse.ParseIsScan(argv, host);
  }

  /** `--manifest-path=PATH` run in directory `cwd` (as in
      `--manifest-path=rel/Cargo.toml` in `/work`): the manifest path is
      PATH joined to the directory and the token is forwarded unchanged. */
  lemma ManifestPathInCwd<T, S>(path: string, cwd: string, host: Host<T, S>)
    requires host.cwd == Some(cwd)
    ensures Parse([ManifestPathFlag + "=" + path], host) ==
            Parsed(Initial<T, S>().(all := [ManifestPathFlag + "=" + path],
                                    manifestPath := Some(Paths.Join(cwd, path)),
                                    dockerInDocker := Flag(host)))
  {
    var tok := ManifestPathFlag + "=" + path;
    CliParse.ParseIsScan([tok], host);
    assert [tok] == [tok] + [];
    assert tok[..|ManifestPathFlag + "="|] == ManifestPathFlag + "=";
    CliSteps.ManifestPathInlineForwarded(tok, [], Initial<T, S>(), host);
    assert tok[|ManifestPathFlag| + 1..] == path;
  }

  /** The join of that example. */
  lemma WorkJoin()
    ensures Paths.Join("/work", "rel/Cargo.toml") == "/work/rel/Cargo.toml"
  {
  }

  /** `--target NAME` (as in `--target unknownplatform`): both tokens are
      forwarded and the target is whatever the resolver makes of the name. */
  lemma TargetByName<T, S>(name: string, host: Host<T, S>)
    ensures Parse([TargetFlag, name], host) ==
            Parsed(Initial<T, S>().(all := [TargetFlag, name],
                                    target := Some(host.resolveTarget(name)),
                                    dockerInDocker := Flag(host)))
  {
    CliParse.ParseIsScan([TargetFlag, name], host);
    assert [TargetFlag, name] == [TargetFlag, name] + [];
    CliSteps.TargetPairForwarded(name, [], Initial<T, S>(), host);
  }

  /** `--target NAME --target` (as in `--target x86_64-unknown-linux-gnu
      --target`): the trailing bare flag is forwarded but assigns nothing,
      so the target stays NAME's descriptor. */
  lemma TrailingTargetIgnored<T, S>(name: string, host: Host<T, S>)
    ensures Parse([TargetFlag, name] + [TargetFlag], host) ==
            Parsed(Initial<T, S>().(all := [TargetFlag, name] + [TargetFlag],
                                    target := Some(host.resolveTarget(name)),
                                    dockerInDocker := Flag(host)))
  {
    var acc1 := Initial<T, S>().(all := [TargetFlag, name], target := Some(host.resolveTarget(name)));
    CliSteps.TargetPairForwarded(name, [TargetFlag], Initial<T, S>(), host);
    SeqFacts.ConcatEmpty(Initial<T, S>().all, [TargetFlag, name]);
    CliSteps.DanglingFlagForwarded(TargetFlag, acc1, host);
    ParseOf([TargetFlag, name] + [TargetFlag], host, acc1.(all := acc1.all + [TargetFlag]));
  }

  /** `--target-dir=DIR` alone (as in `--target-dir=/x`): no subcommand,
      and the token is replaced wholesale. */
  lemma NoSubcommand<T, S>(dir: string, host: Host<T, S>)
    ensures Parse([TargetDirFlag + "=" + dir], host) ==
            Parsed(Initial<T, S>().(all := [TargetDirFlag + "=" + ContainerTargetDir], targetDir := Some(dir),
                                    dockerInDocker := Flag(host)))
  {
    var tok := TargetDirFlag + "=" + dir;
    CliParse.ParseIsScan([tok], host);
    assert [tok] == [tok] + [];
    assert tok[..|TargetDirFlag + "="|] == TargetDirFlag + "=";
    CliSteps.TargetDirInlineRewritten(tok, [], Initial<T, S>(), host);
    assert tok[|TargetDirFlag| + 1..] == dir;
  }

  /** A leading top-level token whose first character is `é` (two bytes in
      UTF-8) makes `parse` panic on it, whatever follows. */
  lemma NonAsciiPanics<T, S>(tok: string, rest: seq<string>, host: Host<T, S>)
    requires tok != "" && tok[0] == '\U{e9}'
    ensures Parse([tok] + rest, host) == Panicked(tok)
  {
    CliParse.ParseIsScan([tok] + rest, host);
    assert ([tok] + rest)[0] == tok;
  }
}

=== FILE: cli_fields.dfy ===
/** Which top-level token decides each of the channel, the manifest path,
    the target and the target directory: each is set only by its own
    flags, and the last such flag wins. */
module CliFields {
  import opened Optional
  import opened Cli
  import opened CliPass
  import CliSteps
  import CliParse
  import EnvFlag
  import SeqFacts

  /** A `+` token, which sets the channel. */
  predicate SetsChannel(tok: string) {
    Classify(tok).Channel?
  }

  /** A `--manifest-path` token, either form. */
  predicate NamesManifestPath(tok: string) {
    Classify(tok).ManifestPathPair? || Classify(tok).ManifestPathInline?
  }

  /** A `--target` token, either form. */
  predicate NamesTarget(tok: string) {
    Classify(tok).TargetPair? || Classify(tok).TargetInline?
  }

  /** A `--target-dir` token, either form. */
  predicate NamesTargetDir(tok: string) {
    Classify(tok).TargetDirPair? || Classify(tok).TargetDirInline?
  }

  /** The turn at the head of `t` assigns the field whose tokens `p`
      names: a bare flag assigns only when its value follows it. */
  predicate Assigns(t: seq<string>, p: string -> bool)
    requires 0 < |t|
  {
    p(t[0]) && (2 <= |t| || !TakesValue(Classify(t[0])))
  }

  /** A turn changes a field only when it assigns it: its token is one of
      that field's flags and, for a bare flag, a value follows. */
  lemma TurnKeepsFields<T, S>(t: seq<string>, acc: Args<T, S>, host: Host<T, S>)
    requires 0 < |t| && !IsUnsplittable(t[0])
    ensures var next := Step(t, acc, host).next;
            && (!Assigns(t, SetsChannel) ==> next.channel == acc.channel)
            && (!Assigns(t, NamesManifestPath) ==> next.manifestPath == acc.manifestPath)
            && (!Assigns(t, NamesTarget) ==> next.target == acc.target)
            && (!Assigns(t, NamesTargetDir) ==> next.targetDir == acc.targetDir)
  {
  }

  /** No top-level token of `t` satisfies `p`. */
  predicate NoTurnWhere(t: seq<string>, p: string -> bool)
    decreases |t|
  {
    |t| == 0 || (!p(t[0]) && NoTurnWhere(t[Width(t)..], p))
  }

  /** `NoTurnWhere` is the walk of `FirstTurnWhere` finding nothing. */
  lemma {:induction false} NoTurnIsNone(toks: seq<string>, i: nat, p: string -> bool)
    requires i <= |toks|
    ensures NoTurnWhere(toks[i..], p) <==> FirstTurnWhere(toks, i, p).None?
    decreases |toks| - i
  {
    if i < |toks| {
      SeqFacts.DropParts(toks, i, WidthAt(toks, i));
      NoTurnIsNone(toks, i + WidthAt(toks, i), p);
    } else {
      SeqFacts.DropAll(toks, i);
    }
  }

  /** No top-level turn of `t` assigns the field `p` names. */
  predicate NoAssignment(t: seq<string>, p: string -> bool)
    decreases |t|
  {
    |t| == 0 || (!Assigns(t, p) && NoAssignment(t[Width(t)..], p))
  }

  /** A field that no top-level token names is not assigned either; the
      converse fails for a trailing bare flag. */
  lemma {:induction false} NoTurnNoAssignment(t: seq<string>, p: string -> bool)
    requires NoTurnWhere(t, p)
    ensures NoAssignment(t, p)
    decreases |t|
  {
    if 0 < |t| {
      NoTurnNoAssignment(t[Width(t)..], p);
    }
  }

  /** A field no top-level turn assigns keeps its value through the pass. */
  lemma {:induction false} FieldsKept<T, S>(t: seq<string>, acc: Args<T, S>, host: Host<T, S>)
    requires Scan(t, acc, host).Parsed?
    ensures var r := Scan(t, acc, host).args;
            && (NoAssignment(t, SetsChannel) ==> r.channel == acc.channel)
            && (NoAssignment(t, NamesManifestPath) ==> r.manifestPath == acc.manifestPath)
            && (NoAssignment(t, NamesTarget) ==> r.target == acc.target)
            && (NoAssignment(t, NamesTargetDir) ==> r.targetDir == acc.targetDir)
    decreases |t|
  {
    if 0 < |t| {
      var st := Step(t, acc, host);
      CliSteps.ScanUnfold(t, acc, host);
      TurnKeepsFields(t, acc, host);
      FieldsKept(t[st.width..], st.next, host);
    }
  }

  /** What the pass over `a`, then the tokens `c`, then `b` ends with, when
      `a` does not end waiting for a flag value: the pass over `b` from the
      state the pass over `a` reached, moved on by `c`. */
  lemma SplitAround<T, S>(a: seq<string>, c: seq<string>, b: seq<string>, host: Host<T, S>)
    returns (r: Args<T, S>)
    requires Closed(a) && Parse(a + c + b, host).Parsed?
    ensures Scan(a, Initial(), host) == Parsed(r)
    ensures Scan(c + b, r, host).Parsed?
    ensures Parse(a + c + b, host).args ==
            Scan(c + b, r, host).args.(dockerInDocker := EnvFlag.DockerInDocker(host.dockerInDockerVar))
  {
    CliParse.ParseIsScan(a + c + b, host);
    SeqFacts.ConcatAssoc(a, c, b);
    ScanConcat(a, c + b, Initial(), host);
    r := Scan(a, Initial(), host).args;
  }

  /** A later `+` token overwrites the channel: after the last one, the
      channel is its remainder. */
  lemma LastChannelWins<T, S>(a: seq<string>, c: string, b: seq<string>, host: Host<T, S>)
    requires Closed(a) && SetsChannel(c) && NoAssignment(b, SetsChannel)
    requires Parse(a + [c] + b, host).Parsed?
    ensures Parse(a + [c] + b, host).args.channel == Some(c[1..])
  {
    var r := SplitAround(a, [c], b, host);
    CliSteps.ChannelTokenNotForwarded(c, b, r, host);
    FieldsKept(b, r.(channel := Some(c[1..])), host);
  }

  /** After the last `--manifest-path VALUE`, the manifest path is VALUE
      resolved against the working directory (none without one). */
  lemma LastManifestPathPairWins<T, S>(a: seq<string>, v: string, b: seq<string>, host: Host<T, S>)
    requires Closed(a) && NoAssignment(b, NamesManifestPath)
    requires Parse(a + [ManifestPathFlag, v] + b, host).Parsed?
    ensures Parse(a + [ManifestPathFlag, v] + b, host).args.manifestPath == ResolveManifest(host.cwd, v)
  {
    var r := SplitAround(a, [ManifestPathFlag, v], b, host);
    CliSteps.ManifestPathPairForwarded(v, b, r, host);
    FieldsKept(b, r.(all := r.all + [ManifestPathFlag, v], manifestPath := ResolveManifest(host.cwd, v)), host);
  }

  /** After the last `--manifest-path=VALUE`, the manifest path is VALUE
      resolved against the working directory (none without one). */
  lemma LastManifestPathInlineWins<T, S>(a: seq<string>, tok: string, b: seq<string>, host: Host<T, S>)
    requires Closed(a) && StartsWith(tok, ManifestPathFlag + "=")
    requires NoAssignment(b, NamesManifestPath)
    requires Parse(a + [tok] + b, host).Parsed?
    ensures Parse(a + [tok] + b, host).args.manifestPath ==
            ResolveManifest(host.cwd, tok[|ManifestPathFlag| + 1..])
  {
    var r := SplitAround(a, [tok], b, host);
    CliSteps.ManifestPathInlineForwarded(tok, b, r, host);
    FieldsKept(b, r.(all := r.all + [tok],
                        manifestPath := ResolveManifest(host.cwd, tok[|ManifestPathFlag| + 1..])), host);
  }

  /** After the last `--target VALUE`, the target is VALUE's descriptor. */
  lemma LastTargetPairWins<T, S>(a: seq<string>, v: string, b: seq<string>, host: Host<T, S>)
    requires Closed(a) && NoAssignment(b, NamesTarget)
    requires Parse(a + [TargetFlag, v] + b, host).Parsed?
    ensures Parse(a + [TargetFlag, v] + b, host).args.target == Some(host.resolveTarget(v))
  {
    var r := SplitAround(a, [TargetFlag, v], b, host);
    CliSteps.TargetPairForwarded(v, b, r, host);
    FieldsKept(b, r.(all := r.all + [TargetFlag, v], target := Some(host.resolveTarget(v))), host);
  }

  /** After the last `--target=VALUE`, the target is VALUE's descriptor. */
  lemma LastTargetInlineWins<T, S>(a: seq<string>, tok: string, b: seq<string>, host: Host<T, S>)
    requires Closed(a) && StartsWith(tok, TargetFlag + "=")
    requires NoAssignment(b, NamesTarget)
    requires Parse(a + [tok] + b, host).Parsed?
    ensures Parse(a + [tok] + b, host).args.target == Some(host.resolveTarget(tok[|TargetFlag| + 1..]))
  {
    var r := SplitAround(a, [tok], b, host);
    CliSteps.TargetInlineForwarded(tok, b, r, host);
    FieldsKept(b, r.(all := r.all + [tok], target := Some(host.resolveTarget(tok[|TargetFlag| + 1..]))), host);
  }

  /** After the last `--target-dir VALUE`, the target directory is VALUE
      as written on the host. */
  lemma LastTargetDirPairWins<T, S>(a: seq<string>, v: string, b: seq<string>, host: Host<T, S>)
    requires Closed(a) && NoAssignment(b, NamesTargetDir)
    requires Parse(a + [TargetDirFlag, v] + b, host).Parsed?
    ensures Parse(a + [TargetDirFlag, v] + b, host).args.targetDir == Some(v)
  {
    var r := SplitAround(a, [TargetDirFlag, v], b, host);
    CliSteps.TargetDirPairRewritten(v, b, r, host);
    FieldsKept(b, r.(all := r.all + [TargetDirFlag, ContainerTargetDir], targetDir := Some(v)), host);
  }

  /** After the last `--target-dir=VALUE`, the target directory is
      everything after the first `=`. */
  lemma LastTargetDirInlineWins<T, S>(a: seq<string>, tok: string, b: seq<string>, host: Host<T, S>)
    requires Closed(a) && StartsWith(tok, TargetDirFlag + "=")
    requires NoAssignment(b, NamesTargetDir)
    requires Parse(a + [tok] + b, host).Parsed?
    ensures Parse(a + [tok] + b, host).args.targetDir == Some(tok[|TargetDirFlag| + 1..])
  {
    var r := SplitAround(a, [tok], b, host);
    CliSteps.TargetDirInlineRewritten(tok, b, r, host);
    FieldsKept(b, r.(all := r.all + [TargetDirFlag + "=" + ContainerTargetDir],
                        targetDir := Some(tok[|TargetDirFlag| + 1..])), host);
  }
}

=== FILE: cli_parse.dfy ===
/** The properties of the whole pass, restated for `Parse`: the pass from
    the initial state over the full argument vector, followed by the
    docker-in-docker flag. */
module CliParse {
  import opened Optional
  import Paths
  import EnvFlag
  import opened Cli
  import opened CliPass
  import SeqFacts

  /** `Parse` is the pass from the initial state, with the flag filled in. */
  lemma ParseIsScan<T, S>(argv: seq<string>, host: Host<T, S>)
    ensures argv[0..] == argv
    ensures Parse(argv, host).Panicked? <==> Scan(argv, Initial(), host).Panicked?
    ensures Parse(argv, host).Panicked? ==> Parse(argv, host) == Scan(argv, Initial(), host)
    ensures Parse(argv, host).Parsed? ==>
            Parse(argv, host).args ==
            Scan(argv, Initial(), host).args.(dockerInDocker := EnvFlag.DockerInDocker(host.dockerInDockerVar))
  {
  }

  /** An argument vector of empty tokens only (the empty vector among
      them) parses to the state before the first token, with the flag read
      from the environment. */
  lemma ParseOnlyEmptyTokens<T, S>(argv: seq<string>, host: Host<T, S>)
    requires forall k :: 0 <= k < |argv| ==> argv[k] == ""
    ensures Parse(argv, host) ==
            Parsed(Initial<T, S>().(dockerInDocker := EnvFlag.DockerInDocker(host.dockerInDockerVar)))
  {
    ParseIsScan(argv, host);
    EmptyTokensOnly(argv, Initial(), host);
  }

  /** `parse` panics exactly when some top-level token starts with a
      character longer than one byte, and then on the first such token. */
  lemma ParsePanicsAtFirstUnsplittable<T, S>(argv: seq<string>, host: Host<T, S>)
    ensures match FirstTurnWhere(argv, 0, IsUnsplittable)
            case None => Parse(argv, host).Parsed?
            case Some(q) => Parse(argv, host) == Panicked(argv[q])
  {
    ParseIsScan(argv, host);
    PanicsAtFirstUnsplittable(argv, 0, Initial(), host);
  }

  /** The subcommand is the first top-level token that reaches the
      catch-all branch and does not start with `-`. */
  lemma ParseSubcommand<T, S>(argv: seq<string>, host: Host<T, S>)
    requires Parse(argv, host).Parsed?
    ensures Parse(argv, host).args.subcommand ==
            match FirstTurnWhere(argv, 0, Eligible)
            case None => None
            case Some(q) => Some(host.classifySubcommand(argv[q]))
  {
    ParseIsScan(argv, host);
    SubcommandIsFirstEligible(argv, 0, Initial(), host);
  }

  /** The forwarded list is the chunks of the turns, and each of its
      elements stands for the input token at the matching source position;
      the source positions increase. */
  lemma ParseForwarded<T, S>(argv: seq<string>, host: Host<T, S>)
    requires Parse(argv, host).Parsed?
    ensures Parse(argv, host).args.all == Output(argv)
    ensures ForwardsAll(argv, Sources(argv, 0), Parse(argv, host).args.all)
    ensures var m := Sources(argv, 0);
            forall a, b :: 0 <= a < b < |m| ==> m[a] < m[b]
  {
    ParseIsScan(argv, host);
    var all := Scan(argv, Initial(), host).args.all;
    SeqFacts.ConcatEmpty(Initial<T, S>().all, all);
    assert all[|Initial<T, S>().all|..] == all;
    ScanEmitsOutput(argv, Initial(), host);
    OutputFromSources(argv, 0);
    SourcesInOrder(argv, 0);
  }

  /** Parsing the forwarded list again gives the same forwarded list and
      the same fields, except that no channel is set and the target
      directory reads as the container directory. */
  lemma ParseReparse<T, S>(argv: seq<string>, host: Host<T, S>)
    requires Parse(argv, host).Parsed?
    ensures var r := Parse(argv, host).args;
            Parse(r.all, host) == Parsed(r.(channel := None, targetDir := Relocated(r.targetDir)))
  {
    ParseIsScan(argv, host);
    var r := Scan(argv, Initial(), host).args;
    ReparseForwarded(argv, Initial(), Initial(), host);
    assert r.all[|Initial<T, S>().all|..] == r.all;
    SeqFacts.ConcatEmpty(Initial<T, S>().all, r.all);
    ParseIsScan(r.all, host);
  }

  /** Forwarding is stable: the forwarded list of the forwarded list is
      itself. */
  lemma ParseForwardedIsFixpoint<T, S>(argv: seq<string>, host: Host<T, S>)
    requires Parse(argv, host).Parsed?
    ensures var all := Parse(argv, host).args.all;
            Parse(all, host).Parsed? && Parse(all, host).args.all == all
  {
    ParseReparse(argv, host);
  }

  /** An empty top-level token anywhere changes nothing. */
  lemma ParseSkipsEmptyToken<T, S>(a: seq<string>, b: seq<string>, host: Host<T, S>)
    requires Closed(a)
    ensures Parse(a + [""] + b, host) == Parse(a + b, host)
  {
    EmptyTokenSkippedAnywhere(a, b, Initial(), host);
    ParseIsScan(a + [""] + b, host);
    ParseIsScan(a + b, host);
  }

  /** The manifest path is the value of the last top-level turn that
      assigns one, resolved against the working directory, and unset when no
      turn assigns one: so unset whenever the working directory is
      unavailable, absolute whenever it is absolute. */
  lemma ParseManifestPath<T, S>(argv: seq<string>, host: Host<T, S>) returns (v: string)
    requires Parse(argv, host).Parsed?
    ensures Parse(argv, host).args.manifestPath ==
            match LastManifestValue(argv)
            case None => None
            case Some(x) => ResolveManifest(host.cwd, x)
    ensures LastManifestValue(argv).Some? ==> v == LastManifestValue(argv).value
    ensures var mp := Parse(argv, host).args.manifestPath;
            mp == None || mp == ResolveManifest(host.cwd, v)
    ensures host.cwd.None? ==> Parse(argv, host).args.manifestPath == None
    ensures host.cwd.Some? && Paths.IsAbsolute(host.cwd.value) && Parse(argv, host).args.manifestPath.Some? ==>
            Paths.IsAbsolute(Parse(argv, host).args.manifestPath.value)
  {
    ParseIsScan(argv, host);
    v := ManifestPathResolved(argv, Initial(), host);
  }
}

=== FILE: cli_pass.dfy ===
/** Properties of the whole pass of the argument classifier: where the
    top-level tokens are, which one becomes the subcommand, when the pass
    panics, how the forwarded list relates to the input, and what re-parsing
    the forwarded list gives. */
module CliPass {
  import opened Optional
  import Paths
  import opened Cli
  import CliSteps
  import SeqFacts

  // ---------------------------------------------------------------------
  // Top-level positions
  // ---------------------------------------------------------------------

  /** The number of tokens the turn starting at position `i` consumes. */
  function WidthAt(toks: seq<string>, i: nat): nat
    requires i < |toks|
  {
    Width(toks[i..])
  }

  /** The positions at or after `i` where a turn of the loop starts: the
      top-level tokens, as opposed to the values two-token flags consume. */
  function HeadsFrom(toks: seq<string>, i: nat): (hs: seq<nat>)
    requires i <= |toks|
    decreases |toks| - i
    ensures |hs| == 0 <==> i == |toks|
    ensures 0 < |hs| ==> hs[0] == i
    ensures forall k :: 0 <= k < |hs| ==> i <= hs[k] < |toks|
  {
    if i == |toks| then []
    else [i] + HeadsFrom(toks, i + WidthAt(toks, i))
  }

  /** Consecutive top-level positions are one turn apart, and the last
      turn ends exactly at the end of the arguments. */
  lemma HeadsAreTurnsApart(toks: seq<string>, i: nat)
    requires i <= |toks|
    ensures var hs := HeadsFrom(toks, i);
            forall k :: 0 <= k < |hs| - 1 ==> hs[k + 1] == hs[k] + WidthAt(toks, hs[k])
    ensures var hs := HeadsFrom(toks, i);
            0 < |hs| ==> hs[|hs| - 1] + WidthAt(toks, hs[|hs| - 1]) == |toks|
  {
    var hs := HeadsFrom(toks, i);
    forall k | 0 <= k < |hs| - 1
      ensures hs[k + 1] == hs[k] + WidthAt(toks, hs[k])
    {
      HeadGap(toks, i, k);
    }
    if 0 < |hs| {
      LastHeadEnds(toks, i);
    }
  }

  /** The `k+1`-th top-level position is one turn after the `k`-th. */
  lemma {:induction false} HeadGap(toks: seq<string>, i: nat, k: nat)
    requires i <= |toks| && k + 1 < |HeadsFrom(toks, i)|
    ensures var hs := HeadsFrom(toks, i);
            hs[k + 1] == hs[k] + WidthAt(toks, hs[k])
    decreases k
  {
    var w := WidthAt(toks, i);
    var tail := HeadsFrom(toks, i + w);
    HeadsCons(toks, i);
    SeqFacts.ConsIndex(i, tail, k);
    SeqFacts.ConsIndex(i, tail, k + 1);
    if 0 < k {
      HeadGap(toks, i + w, k - 1);
    }
  }

  /** The last turn ends exactly at the end of the arguments. */
  lemma {:induction false} LastHeadEnds(toks: seq<string>, i: nat)
    requires i < |toks|
    ensures var hs := HeadsFrom(toks, i);
            hs[|hs| - 1] + WidthAt(toks, hs[|hs| - 1]) == |toks|
    decreases |toks| - i
  {
    var w := WidthAt(toks, i);
    var tail := HeadsFrom(toks, i + w);
    HeadsCons(toks, i);
    SeqFacts.ConsIndex(i, tail, |tail|);
    if i + w < |toks| {
      LastHeadEnds(toks, i + w);
    }
  }

  /** The top-level positions come in increasing order. */
  lemma {:induction false} HeadsIncrease(toks: seq<string>, i: nat)
    requires i <= |toks|
    ensures var hs := HeadsFrom(toks, i);
            forall a, b :: 0 <= a < b < |hs| ==> hs[a] < hs[b]
    decreases |toks| - i
  {
    if i < |toks| {
      var hs := HeadsFrom(toks, i);
      var tail := HeadsFrom(toks, i + WidthAt(toks, i));
      HeadsCons(toks, i);
      HeadsIncrease(toks, i + WidthAt(toks, i));
      forall a, b | 0 <= a < b < |hs|
        ensures hs[a] < hs[b]
      {
        SeqFacts.ConsIndex(i, tail, a);
        SeqFacts.ConsIndex(i, tail, b);
      }
    }
  }

  /** The top-level positions from `i` are `i` followed by those after
      the turn at `i`. */
  lemma HeadsCons(toks: seq<string>, i: nat)
    requires i < |toks|
    ensures HeadsFrom(toks, i) == [i] + HeadsFrom(toks, i + WidthAt(toks, i))
  {
  }

  /** The value a two-token flag consumes is never itself a top-level
      token, so it is never classified: it cannot set the channel, panic,
      or become the subcommand. */
  lemma ValueIsNotHead(toks: seq<string>, i: nat, k: nat)
    requires i <= |toks| && k < |HeadsFrom(toks, i)|
    requires var h := HeadsFrom(toks, i)[k]; TakesValue(Classify(toks[h])) && h + 1 < |toks|
    ensures HeadsFrom(toks, i)[k] + 1 !in HeadsFrom(toks, i)
  {
    var hs := HeadsFrom(toks, i);
    HeadsAreTurnsApart(toks, i);
    HeadsIncrease(toks, i);
    assert WidthAt(toks, hs[k]) == 2;
    if k + 1 < |hs| {
      forall j | 0 <= j < |hs| ensures hs[j] != hs[k] + 1 {
        if k + 1 < j { assert hs[k + 1] < hs[j]; }
      }
    }
  }

  predicate IsUnsplittable(tok: string) {
    Classify(tok).Unsplittable?
  }

  /** Scanning from a top-level position `i` is one turn followed by the
      scan from the next top-level position; `next` is the state after that
      turn. */
  lemma ScanAt<T, S>(toks: seq<string>, i: nat, acc: Args<T, S>, host: Host<T, S>)
    returns (next: Args<T, S>)
    requires i < |toks| && !IsUnsplittable(toks[i])
    ensures Scan(toks[i..], acc, host) == Scan(toks[i + WidthAt(toks, i)..], next, host)
    ensures !Eligible(toks[i]) ==> next.subcommand == acc.subcommand
    ensures Eligible(toks[i]) && acc.subcommand.None? ==>
            next.subcommand == Some(host.classifySubcommand(toks[i]))
    ensures acc.subcommand.Some? ==> next.subcommand == acc.subcommand
  {
    SeqFacts.DropParts(toks, i, WidthAt(toks, i));
    var st := Step(toks[i..], acc, host);
    next := st.next;
    CliSteps.ScanUnfold(toks[i..], acc, host);
  }

  /** A scan from an unsplittable top-level token panics on it. */
  lemma ScanAtUnsplittable<T, S>(toks: seq<string>, i: nat, acc: Args<T, S>, host: Host<T, S>)
    requires i < |toks| && IsUnsplittable(toks[i])
    ensures Scan(toks[i..], acc, host) == Panicked(toks[i])
  {
    SeqFacts.DropParts(toks, i, 1);
  }

  /** The first position from `i` on, walking the arguments turn by turn,
      whose token satisfies `p`. */
  function FirstTurnWhere(toks: seq<string>, i: nat, p: string -> bool): (r: Option<nat>)
    requires i <= |toks|
    decreases |toks| - i
    ensures r.Some? ==> i <= r.value < |toks|
  {
    if i == |toks| then None
    else if p(toks[i]) then Some(i)
    else FirstTurnWhere(toks, i + WidthAt(toks, i), p)
  }

  /** The walk finds exactly the first top-level token satisfying `p`: none
      when no top-level token does, else a top-level position whose token
      does and before which no top-level token does. Values consumed by
      two-token flags are never looked at. */
  lemma {:induction false} FirstTurnIsFirstHead(toks: seq<string>, i: nat, p: string -> bool)
    requires i <= |toks|
    ensures var hs := HeadsFrom(toks, i);
            match FirstTurnWhere(toks, i, p)
            case None => forall k :: 0 <= k < |hs| ==> !p(toks[hs[k]])
            case Some(q) => q in hs && p(toks[q]) &&
                            forall k :: 0 <= k < |hs| && hs[k] < q ==> !p(toks[hs[k]])
    decreases |toks| - i
  {
    if i < |toks| {
      var w := WidthAt(toks, i);
      var hs := HeadsFrom(toks, i);
      var tail := HeadsFrom(toks, i + w);
      HeadsCons(toks, i);
      SeqFacts.ConsIndex(i, tail, 0);
      if !p(toks[i]) {
        FirstTurnIsFirstHead(toks, i + w, p);
        match FirstTurnWhere(toks, i + w, p)
        case None => NoneAfterHead(toks, hs, i, tail, p);
        case Some(q) => FirstAfterHead(toks, hs, i, tail, p, q);
      }
    }
  }

  /** A head that fails `p`, followed by heads that all fail it. */
  lemma NoneAfterHead(toks: seq<string>, hs: seq<nat>, i: nat, tail: seq<nat>, p: string -> bool)
    requires hs == [i] + tail && i < |toks| && !p(toks[i])
    requires forall k :: 0 <= k < |tail| ==> tail[k] < |toks| && !p(toks[tail[k]])
    ensures forall k :: 0 <= k < |hs| ==> hs[k] < |toks| && !p(toks[hs[k]])
  {
    forall k | 0 <= k < |hs|
      ensures hs[k] < |toks| && !p(toks[hs[k]])
    {
      SeqFacts.ConsIndex(i, tail, k);
    }
  }

  /** A head that fails `p`, followed by heads whose first success is `q`. */
  lemma FirstAfterHead(toks: seq<string>, hs: seq<nat>, i: nat, tail: seq<nat>, p: string -> bool, q: nat)
    requires hs == [i] + tail && i < |toks| && !p(toks[i]) && i < q
    requires forall k :: 0 <= k < |tail| ==> tail[k] < |toks|
    requires q in tail && forall k :: 0 <= k < |tail| && tail[k] < q ==> !p(toks[tail[k]])
    ensures q in hs
    ensures forall k :: 0 <= k < |hs| && hs[k] < q ==> hs[k] < |toks| && !p(toks[hs[k]])
  {
    forall k | 0 <= k < |hs| && hs[k] < q
      ensures hs[k] < |toks| && !p(toks[hs[k]])
    {
      SeqFacts.ConsIndex(i, tail, k);
    }
  }

  /** The pass panics exactly when some top-level token starts with a
      character longer than one byte, and it panics on the first one. */
  lemma {:induction false} PanicsAtFirstUnsplittable<T, S>(toks: seq<string>, i: nat, acc: Args<T, S>, host: Host<T, S>)
    requires i <= |toks|
    ensures match FirstTurnWhere(toks, i, IsUnsplittable)
            case None => Scan(toks[i..], acc, host).Parsed?
            case Some(q) => Scan(toks[i..], acc, host) == Panicked(toks[q])
    decreases |toks| - i
  {
    if i == |toks| {
      SeqFacts.DropAll(toks, i);
    } else if IsUnsplittable(toks[i]) {
      ScanAtUnsplittable(toks, i, acc, host);
    } else {
      var next := ScanAt(toks, i, acc, host);
      PanicsAtFirstUnsplittable(toks, i + WidthAt(toks, i), next, host);
    }
  }

  /** The subcommand is the first top-level token that reaches the
      catch-all branch and does not start with `-`; none if there is no
      such token. An earlier subcommand is never replaced. */
  lemma {:induction false} SubcommandIsFirstEligible<T, S>(toks: seq<string>, i: nat, acc: Args<T, S>, host: Host<T, S>)
    requires i <= |toks|
    requires Scan(toks[i..], acc, host).Parsed?
    ensures Scan(toks[i..], acc, host).args.subcommand ==
            if acc.subcommand.Some? then acc.subcommand
            else match FirstTurnWhere(toks, i, Eligible)
                 case None => None
                 case Some(q) => Some(host.classifySubcommand(toks[q]))
    decreases |toks| - i
  {
    if i == |toks| {
      SeqFacts.DropAll(toks, i);
    } else if acc.subcommand.None? {
      if IsUnsplittable(toks[i]) {
        ScanAtUnsplittable(toks, i, acc, host);
      } else {
        var next := ScanAt(toks, i, acc, host);
        SubcommandIsFirstEligible(toks, i + WidthAt(toks, i), next, host);
      }
    }
  }

  // ---------------------------------------------------------------------
  // The forwarded list against the input
  // ---------------------------------------------------------------------

  /** The input positions the turn at `i` forwards, in order: none for an
      empty or `+` token, the flag and its value for a two-token flag that
      has one, the token alone otherwise. */
  function TurnSources(toks: seq<string>, i: nat): (m: seq<nat>)
    requires i < |toks|
    ensures forall k :: 0 <= k < |m| ==> i <= m[k] < i + WidthAt(toks, i)
    ensures forall a, b :: 0 <= a < b < |m| ==> m[a] < m[b]
  {
    match Classify(toks[i])
    case Skip => []
    case Channel => []
    case Unsplittable => []
    case _ => if WidthAt(toks, i) == 2 then [i, i + 1] else [i]
  }

  /** The input positions the pass from `i` forwards, in order. */
  function Sources(toks: seq<string>, i: nat): (m: seq<nat>)
    requires i <= |toks|
    decreases |toks| - i
    ensures |m| <= |toks| - i
    ensures forall k :: 0 <= k < |m| ==> i <= m[k] < |toks|
  {
    if i == |toks| then []
    else TurnSources(toks, i) + Sources(toks, i + WidthAt(toks, i))
  }

  /** The forwarded tokens keep the order of the input positions they
      stand for. */
  lemma {:induction false} SourcesInOrder(toks: seq<string>, i: nat)
    requires i <= |toks|
    ensures forall a, b :: 0 <= a < b < |Sources(toks, i)| ==> Sources(toks, i)[a] < Sources(toks, i)[b]
    decreases |toks| - i
  {
    if i < |toks| {
      var w := WidthAt(toks, i);
      var m1 := TurnSources(toks, i);
      var m2 := Sources(toks, i + w);
      var m := Sources(toks, i);
      SourcesInOrder(toks, i + w);
      assert m == m1 + m2;
      forall a, b | 0 <= a < b < |m|
        ensures m[a] < m[b]
      {
        if b < |m1| {
          assert m[a] == m1[a] && m[b] == m1[b];
        } else if a < |m1| {
          assert m[a] == m1[a] && m[b] == m2[b - |m1|];
          assert m1[a] < i + w <= m2[b - |m1|];
        } else {
          assert m[a] == m2[a - |m1|] && m[b] == m2[b - |m1|];
        }
      }
    }
  }

  /** `out` stands for the input token at position `p`: it is that token,
      or the container directory in place of a `--target-dir` value, or
      `--target-dir=/target` in place of a `--target-dir=` token. */
  predicate Forwards(toks: seq<string>, p: nat, out: string)
    requires p < |toks|
  {
    || out == toks[p]
    || (out == ContainerTargetDir && 0 < p && toks[p - 1] == TargetDirFlag)
    || (out == TargetDirFlag + "=" + ContainerTargetDir && StartsWith(toks[p], TargetDirFlag + "="))
  }

  /** The tokens one turn appends to the forwarded list: none for an empty
      or `+` token, otherwise at most one per token the turn consumes, and
      the turn's own tokens verbatim unless it is a `--target-dir` form. */
  function Chunk(t: seq<string>): (r: seq<string>)
    requires 0 < |t|
    ensures |r| <= Width(t)
    ensures |r| == 0 <==> Classify(t[0]).Skip? || Classify(t[0]).Channel? || Classify(t[0]).Unsplittable?
    ensures !Classify(t[0]).TargetDirPair? && !Classify(t[0]).TargetDirInline? ==> r == t[..|r|]
  {
    match Classify(t[0])
    case Skip => []
    case Channel => []
    case Unsplittable => []
    case TargetDirInline => [TargetDirFlag + "=" + ContainerTargetDir]
    case TargetDirPair => if 2 <= |t| then [t[0], ContainerTargetDir] else [t[0]]
    case ManifestPathPair => if 2 <= |t| then [t[0], t[1]] else [t[0]]
    case TargetPair => if 2 <= |t| then [t[0], t[1]] else [t[0]]
    case _ => [t[0]]
  }

  lemma StepAppendsChunk<T, S>(t: seq<string>, acc: Args<T, S>, host: Host<T, S>)
    requires 0 < |t| && !IsUnsplittable(t[0])
    ensures Step(t, acc, host).next.all == acc.all + Chunk(t)
  {
    var tok := t[0];
    var next := Step(t, acc, host).next;
    match Classify(tok)
    case Skip =>
    case Channel =>
    case TargetDirInline =>
      CliSteps.InlineValue(tok, TargetDirFlag);
      assert next.all == acc.all + [TargetDirFlag + "=" + ContainerTargetDir];
    case TargetDirPair =>
    case ManifestPathPair =>
    case TargetPair =>
    case ManifestPathInline =>
    case TargetInline =>
    case Passthrough =>
  }

  /** Each element of `out` stands for the input token at the matching
      position of `m`. */
  predicate ForwardsAll(toks: seq<string>, m: seq<nat>, out: seq<string>) {
    && |m| == |out|
    && (forall k :: 0 <= k < |m| ==> m[k] < |toks|)
    && forall k :: 0 <= k < |m| ==> m[k] < |toks| && Forwards(toks, m[k], out[k])
  }

  lemma ForwardsAllConcat(toks: seq<string>, m1: seq<nat>, out1: seq<string>, m2: seq<nat>, out2: seq<string>)
    requires ForwardsAll(toks, m1, out1) && ForwardsAll(toks, m2, out2)
    ensures ForwardsAll(toks, m1 + m2, out1 + out2)
  {
    forall k | 0 <= k < |m1 + m2|
      ensures (m1 + m2)[k] < |toks| && Forwards(toks, (m1 + m2)[k], (out1 + out2)[k])
    {
      if k >= |m1| {
        assert (m1 + m2)[k] == m2[k - |m1|] && (out1 + out2)[k] == out2[k - |m1|];
      }
    }
  }

  /** What one turn appends to the forwarded list. */
  lemma TurnAppends<T, S>(toks: seq<string>, i: nat, acc: Args<T, S>, host: Host<T, S>)
    returns (next: Args<T, S>)
    requires i < |toks| && !IsUnsplittable(toks[i])
    ensures Scan(toks[i..], acc, host) == Scan(toks[i + WidthAt(toks, i)..], next, host)
    ensures |acc.all| <= |next.all| && next.all[..|acc.all|] == acc.all
    ensures next.all[|acc.all|..] == Chunk(toks[i..])
  {
    var t := toks[i..];
    SeqFacts.DropParts(toks, i, WidthAt(toks, i));
    var st := Step(t, acc, host);
    next := st.next;
    CliSteps.ScanUnfold(t, acc, host);
    StepAppendsChunk(t, acc, host);
    SeqFacts.AppendedTail(acc.all, Chunk(t));
  }

  /** What one turn appends stands, element by element, for the input
      positions of that turn. */
  lemma ChunkForwards(toks: seq<string>, i: nat)
    requires i < |toks|
    ensures ForwardsAll(toks, TurnSources(toks, i), Chunk(toks[i..]))
  {
    var t := toks[i..];
    assert t[0] == toks[i];
    assert 2 <= |t| ==> t[1] == toks[i + 1];
    var c := Chunk(t);
    var m := TurnSources(toks, i);
    assert |c| == |m|;
    forall k | 0 <= k < |m|
      ensures Forwards(toks, m[k], c[k])
    {
      if Classify(toks[i]).TargetDirInline? {
        CliSteps.FlagRules(toks[i]);
        assert c[k] == TargetDirFlag + "=" + ContainerTargetDir;
        assert StartsWith(toks[i], TargetDirFlag + "=");
      } else if Classify(toks[i]).TargetDirPair? && k == 1 {
        assert toks[i] == TargetDirFlag;
      } else {
        assert c[k] == toks[m[k]];
      }
    }
  }

  /** The forwarded list of a pass over `t` that does not panic, defined
      from the input alone: the chunks of its turns, in order. */
  function Output(t: seq<string>): (r: seq<string>)
    decreases |t|
    ensures |r| <= |t|
  {
    if |t| == 0 then [] else Chunk(t) + Output(t[Width(t)..])
  }

  /** A pass that does not panic appends exactly `Output`. */
  lemma {:induction false} ScanEmitsOutput<T, S>(t: seq<string>, acc: Args<T, S>, host: Host<T, S>)
    requires Scan(t, acc, host).Parsed?
    ensures Emitted(t, acc, host) == Output(t)
    decreases |t|
  {
    if 0 < |t| {
      var st := Step(t, acc, host);
      CliSteps.ScanUnfold(t, acc, host);
      StepAppendsChunk(t, acc, host);
      SeqFacts.AppendedTail(acc.all, Chunk(t));
      ScanEmitsOutput(t[st.width..], st.next, host);
      EmittedThrough(t, acc, t[st.width..], st.next, host);
    } else {
      SeqFacts.DropAll(acc.all, |acc.all|);
    }
  }

  /** Each element of `Output` stands for the input token at the matching
      element of `Sources`. */
  lemma {:induction false} OutputFromSources(toks: seq<string>, i: nat)
    requires i <= |toks|
    ensures ForwardsAll(toks, Sources(toks, i), Output(toks[i..]))
    decreases |toks| - i
  {
    if i < |toks| {
      var w := WidthAt(toks, i);
      SeqFacts.DropParts(toks, i, w);
      OutputFromSources(toks, i + w);
      ChunkForwards(toks, i);
      ForwardsAllConcat(toks, TurnSources(toks, i), Chunk(toks[i..]), Sources(toks, i + w), Output(toks[i + w..]));
    } else {
      SeqFacts.DropAll(toks, i);
    }
  }

  /** Every element of the forwarded list stands for the input token at
      the matching source position. `Forwards` also accepts the token itself
      at every position, so this alone does not say which elements were
      rewritten to `/target`: that is pinned by `Output` and `Chunk` (see
      `CliParse.ParseForwarded`) and by `CliParse.ParseReparse`. The order
      of the source positions is `SourcesInOrder`. */
  lemma ForwardedFromSources<T, S>(toks: seq<string>, i: nat, acc: Args<T, S>, host: Host<T, S>)
    requires i <= |toks|
    requires Scan(toks[i..], acc, host).Parsed?
    ensures ForwardsAll(toks, Sources(toks, i), Emitted(toks[i..], acc, host))
  {
    ScanEmitsOutput(toks[i..], acc, host);
    OutputFromSources(toks, i);
  }

  // ---------------------------------------------------------------------
  // Splitting the input
  // ---------------------------------------------------------------------

  /** The argument list does not end inside a turn: it does not end with a
      two-token flag still waiting for its value. */
  predicate Closed(a: seq<string>)
    decreases |a|
  {
    if |a| == 0 then true
    else if TakesValue(Classify(a[0])) then 2 <= |a| && Closed(a[2..])
    else Closed(a[1..])
  }

  /** Continues a pass over `b`, unless it has already panicked. */
  function Then<T, S>(o: Outcome<T, S>, b: seq<string>, host: Host<T, S>): Outcome<T, S> {
    match o
    case Panicked(t) => Panicked(t)
    case Parsed(r) => Scan(b, r, host)
  }

  /** A turn only looks at its own tokens. */
  lemma StepIgnoresLaterTokens<T, S>(a: seq<string>, b: seq<string>, acc: Args<T, S>, host: Host<T, S>)
    requires 0 < |a| && (TakesValue(Classify(a[0])) ==> 2 <= |a|)
    ensures Step(a + b, acc, host) == Step(a, acc, host)
  {
    assert (a + b)[0] == a[0];
    if 2 <= |a| {
      assert (a + b)[1] == a[1];
    }
  }

  /** A pass over `a + b` is a pass over `a` followed by a pass over `b`,
      when `a` does not end waiting for a flag value. */
  lemma {:induction false} ScanConcat<T, S>(a: seq<string>, b: seq<string>, acc: Args<T, S>, host: Host<T, S>)
    requires Closed(a)
    ensures Scan(a + b, acc, host) == Then(Scan(a, acc, host), b, host)
    decreases |a|
  {
    if |a| == 0 {
      SeqFacts.ConcatEmpty(a, b);
    } else {
      StepIgnoresLaterTokens(a, b, acc, host);
      var st := Step(a, acc, host);
      if st.Advance? {
        CliSteps.ScanUnfold(a, acc, host);
        CliSteps.ScanUnfold(a + b, acc, host);
        ScanConcat(a[st.width..], b, st.next, host);
        ScanConcatTurn(a, b, st.width, acc, st.next, host);
      }
    }
  }

  /** The step case of `ScanConcat`: a first turn of width `w` ending in
      `next`, shared by both passes, and the claim for what follows it. */
  lemma ScanConcatTurn<T, S>(a: seq<string>, b: seq<string>, w: nat, acc: Args<T, S>, next: Args<T, S>, host: Host<T, S>)
    requires w <= |a|
    requires Scan(a, acc, host) == Scan(a[w..], next, host)
    requires Scan(a + b, acc, host) == Scan((a + b)[w..], next, host)
    requires Scan(a[w..] + b, next, host) == Then(Scan(a[w..], next, host), b, host)
    ensures Scan(a + b, acc, host) == Then(Scan(a, acc, host), b, host)
  {
    SeqFacts.DropOfConcat(a, b, w);
  }

  /** An empty token at any top-level position is skipped: removing it
      changes neither the forwarded list nor any field. */
  lemma EmptyTokenSkippedAnywhere<T, S>(a: seq<string>, b: seq<string>, acc: Args<T, S>, host: Host<T, S>)
    requires Closed(a)
    ensures Scan(a + [""] + b, acc, host) == Scan(a + b, acc, host)
  {
    SeqFacts.ConcatAssoc(a, [""], b);
    ScanConcat(a, [""] + b, acc, host);
    ScanConcat(a, b, acc, host);
    match Scan(a, acc, host)
    case Panicked(_) =>
    case Parsed(r) => CliSteps.EmptyTokenSkipped(b, r, host);
  }

  /** A pass over empty tokens only leaves the state as it was. */
  lemma {:induction false} EmptyTokensOnly<T, S>(t: seq<string>, acc: Args<T, S>, host: Host<T, S>)
    requires forall k :: 0 <= k < |t| ==> t[k] == ""
    ensures Scan(t, acc, host) == Parsed(acc)
    decreases |t|
  {
    if 0 < |t| {
      SeqFacts.ConsParts(t[0], t[1..]);
      CliSteps.EmptyTokenSkipped(t[1..], acc, host);
      EmptyTokensOnly(t[1..], acc, host);
    }
  }

  // ---------------------------------------------------------------------
  // The manifest path
  // ---------------------------------------------------------------------

  /** The manifest-path value one turn assigns, if any: the token after a
      bare `--manifest-path`, or the text after the first `=` of a
      `--manifest-path=` token. A bare flag with nothing after it assigns
      nothing. */
  function TurnManifestValue(t: seq<string>): Option<string>
    requires 0 < |t|
  {
    match Classify(t[0])
    case ManifestPathPair => if 2 <= |t| then Some(t[1]) else None
    case ManifestPathInline => Some(t[0][|ManifestPathFlag| + 1..])
    case _ => None
  }

  /** The value the last top-level turn of `t` that assigns one gives the
      manifest path, defined from the input alone. */
  function LastManifestValue(t: seq<string>): Option<string>
    decreases |t|
  {
    if |t| == 0 then None
    else
      match LastManifestValue(t[Width(t)..])
      case Some(v) => Some(v)
      case None => TurnManifestValue(t)
  }

  /** The manifest path once `value` (if any) has been assigned over
      `before`. */
  function ManifestAfter(before: Option<string>, value: Option<string>, cwd: Option<string>): Option<string> {
    match value
    case None => before
    case Some(v) => ResolveManifest(cwd, v)
  }

  /** One turn sets the manifest path to the resolution of the value it
      assigns, and leaves it alone when it assigns none. */
  lemma StepManifest<T, S>(toks: seq<string>, acc: Args<T, S>, host: Host<T, S>) returns (v: string)
    requires 0 < |toks| && Step(toks, acc, host).Advance?
    ensures Step(toks, acc, host).next.manifestPath ==
            ManifestAfter(acc.manifestPath, TurnManifestValue(toks), host.cwd)
    ensures TurnManifestValue(toks).Some? ==> v == TurnManifestValue(toks).value
    ensures var mp := Step(toks, acc, host).next.manifestPath;
            mp == acc.manifestPath || mp == ResolveManifest(host.cwd, v)
  {
    var tok := toks[0];
    v := "";
    match Classify(tok)
    case ManifestPathPair =>
      if 2 <= |toks| { v := toks[1]; }
    case ManifestPathInline =>
      CliSteps.FlagRules(tok);
      CliSteps.InlineValue(tok, ManifestPathFlag);
      v := tok[|ManifestPathFlag| + 1..];
    case _ =>
  }

  /** The manifest path after a pass is the resolution of the value the
      last assigning turn gives, or the one before when no turn assigns
      one. */
  lemma {:induction false} ManifestPathResolved<T, S>(toks: seq<string>, acc: Args<T, S>, host: Host<T, S>)
    returns (v: string)
    requires Scan(toks, acc, host).Parsed?
    ensures Scan(toks, acc, host).args.manifestPath ==
            ManifestAfter(acc.manifestPath, LastManifestValue(toks), host.cwd)
    ensures LastManifestValue(toks).Some? ==> v == LastManifestValue(toks).value
    ensures var mp := Scan(toks, acc, host).args.manifestPath;
            mp == acc.manifestPath || mp == ResolveManifest(host.cwd, v)
    decreases |toks|
  {
    v := if LastManifestValue(toks).Some? then LastManifestValue(toks).value else "";
    if 0 < |toks| {
      var st := Step(toks, acc, host);
      CliSteps.ScanUnfold(toks, acc, host);
      var v0 := StepManifest(toks, acc, host);
      var v1 := ManifestPathResolved(toks[st.width..], st.next, host);
    }
  }

  // ---------------------------------------------------------------------
  // Re-parsing the forwarded list
  // ---------------------------------------------------------------------

  /** The host target directory as it reads after forwarding. */
  function Relocated(td: Option<string>): (r: Option<string>)
    ensures r.Some? <==> td.Some?
    ensures r.Some? ==> r.value == ContainerTargetDir
  {
    match td
    case None => None
    case Some(_) => Some(ContainerTargetDir)
  }

  /** `acc2` is the state a pass over the forwarded list should be in, when
      the pass over the input is in state `acc`. */
  ghost predicate Agrees<T, S>(acc: Args<T, S>, acc2: Args<T, S>) {
    && acc2.subcommand == acc.subcommand
    && acc2.target == acc.target
    && acc2.manifestPath == acc.manifestPath
    && acc2.targetDir == Relocated(acc.targetDir)
  }

  /** The state of the second pass after it has forwarded `c`, given the
      state `r` the first pass reached. */
  function Replayed<T, S>(r: Args<T, S>, acc2: Args<T, S>, c: seq<string>): Args<T, S> {
    acc2.(all := acc2.all + c, subcommand := r.subcommand, target := r.target,
          manifestPath := r.manifestPath, targetDir := Relocated(r.targetDir))
  }

  /** `acc2` after re-parsing the tokens `c` that one turn from `acc` forwarded
      (the turn itself ended in `next`), with `e` still to come. */
  ghost predicate Replays<T, S>(acc: Args<T, S>, next: Args<T, S>, acc2: Args<T, S>,
                                e: seq<string>, host: Host<T, S>)
    requires |acc.all| <= |next.all|
  {
    var c := next.all[|acc.all|..];
    Scan(c + e, acc2, host) == Scan(e, Replayed(next, acc2, c), host)
  }

  lemma ReplaySilent<T, S>(toks: seq<string>, acc: Args<T, S>, acc2: Args<T, S>, e: seq<string>, host: Host<T, S>)
    requires 0 < |toks| && (Classify(toks[0]).Skip? || Classify(toks[0]).Channel?)
    requires Agrees(acc, acc2)
    ensures Replays(acc, Step(toks, acc, host).next, acc2, e, host)
  {
    var next := Step(toks, acc, host).next;
    if Classify(toks[0]).Channel? {
      CliSteps.ChannelStep(toks, acc, host);
    }
    assert next.all == acc.all;
    var c := next.all[|acc.all|..];
    SeqFacts.DropAll(acc.all, |acc.all|);
    SeqFacts.ConcatEmpty(c, e);
    SeqFacts.ConcatEmpty(c, acc2.all);
    assert Replayed(next, acc2, c) == acc2;
  }

  lemma ReplayPassthrough<T, S>(toks: seq<string>, acc: Args<T, S>, acc2: Args<T, S>, e: seq<string>, host: Host<T, S>)
    requires 0 < |toks| && Classify(toks[0]).Passthrough?
    requires Agrees(acc, acc2)
    ensures Replays(acc, Step(toks, acc, host).next, acc2, e, host)
  {
    var tok := toks[0];
    CliSteps.PassthroughStep(toks, acc, host);
    var next := CliSteps.PassedThrough(tok, acc, host);
    SeqFacts.AppendedTail(acc.all, [tok]);
    CliSteps.PassthroughForwarded(tok, e, acc2, host);
    assert Replayed(next, acc2, [tok]) == CliSteps.PassedThrough(tok, acc2, host);
  }

  lemma ReplayManifestPathInline<T, S>(toks: seq<string>, acc: Args<T, S>, acc2: Args<T, S>, e: seq<string>, host: Host<T, S>)
    requires 0 < |toks| && Classify(toks[0]).ManifestPathInline?
    requires Agrees(acc, acc2)
    ensures Replays(acc, Step(toks, acc, host).next, acc2, e, host)
  {
    var tok := toks[0];
    var mp := ResolveManifest(host.cwd, tok[|ManifestPathFlag| + 1..]);
    CliSteps.ManifestPathInlineStep(toks, acc, host);
    var next := acc.(all := acc.all + [tok], manifestPath := mp);
    SeqFacts.AppendedTail(acc.all, [tok]);
    CliSteps.ManifestPathInlineForwarded(tok, e, acc2, host);
    assert Replayed(next, acc2, [tok]) == acc2.(all := acc2.all + [tok], manifestPath := mp);
  }

  lemma ReplayTargetInline<T, S>(toks: seq<string>, acc: Args<T, S>, acc2: Args<T, S>, e: seq<string>, host: Host<T, S>)
    requires 0 < |toks| && Classify(toks[0]).TargetInline?
    requires Agrees(acc, acc2)
    ensures Replays(acc, Step(toks, acc, host).next, acc2, e, host)
  {
    var tok := toks[0];
    var t := Some(host.resolveTarget(tok[|TargetFlag| + 1..]));
    CliSteps.TargetInlineStep(toks, acc, host);
    var next := acc.(all := acc.all + [tok], target := t);
    SeqFacts.AppendedTail(acc.all, [tok]);
    CliSteps.TargetInlineForwarded(tok, e, acc2, host);
    assert Replayed(next, acc2, [tok]) == acc2.(all := acc2.all + [tok], target := t);
  }

  lemma ReplayTargetDirInline<T, S>(toks: seq<string>, acc: Args<T, S>, acc2: Args<T, S>, e: seq<string>, host: Host<T, S>)
    requires 0 < |toks| && Classify(toks[0]).TargetDirInline?
    requires Agrees(acc, acc2)
    ensures Replays(acc, Step(toks, acc, host).next, acc2, e, host)
  {
    var tok := toks[0];
    var placeholder := TargetDirFlag + "=" + ContainerTargetDir;
    CliSteps.TargetDirInlineStep(toks, acc, host);
    var next := acc.(all := acc.all + [placeholder], targetDir := Some(tok[|TargetDirFlag| + 1..]));
    SeqFacts.AppendedTail(acc.all, [placeholder]);
    PlaceholderIsInline();
    CliSteps.TargetDirInlineRewritten(placeholder, e, acc2, host);
    assert Replayed(next, acc2, [placeholder]) ==
           acc2.(all := acc2.all + [placeholder], targetDir := Some(ContainerTargetDir));
  }

  /** `--target-dir=/target` is itself an inline `--target-dir=` token,
      whose value is the container directory. */
  lemma PlaceholderIsInline()
    ensures var placeholder := TargetDirFlag + "=" + ContainerTargetDir;
            StartsWith(placeholder, TargetDirFlag + "=")
            && placeholder[|TargetDirFlag| + 1..] == ContainerTargetDir
  {
    var placeholder := TargetDirFlag + "=" + ContainerTargetDir;
    assert placeholder[..|TargetDirFlag| + 1] == TargetDirFlag + "=";
  }

  lemma ReplayDangling<T, S>(toks: seq<string>, acc: Args<T, S>, acc2: Args<T, S>, host: Host<T, S>)
    requires |toks| == 1 && TakesValue(Classify(toks[0]))
    requires Agrees(acc, acc2)
    ensures Replays(acc, Step(toks, acc, host).next, acc2, [], host)
  {
    var tok := toks[0];
    CliSteps.DanglingStep(toks, acc, host);
    var next := acc.(all := acc.all + [tok]);
    SeqFacts.AppendedTail(acc.all, [tok]);
    SeqFacts.ConcatEmpty([], [tok]);
    assert tok == ManifestPathFlag || tok == TargetFlag || tok == TargetDirFlag;
    CliSteps.DanglingFlagForwarded(tok, acc2, host);
    assert Scan([], Replayed(next, acc2, [tok]), host) == Parsed(acc2.(all := acc2.all + [tok]));
  }

  lemma ReplayManifestPathPair<T, S>(toks: seq<string>, acc: Args<T, S>, acc2: Args<T, S>, e: seq<string>, host: Host<T, S>)
    requires 2 <= |toks| && Classify(toks[0]).ManifestPathPair?
    requires Agrees(acc, acc2)
    ensures Replays(acc, Step(toks, acc, host).next, acc2, e, host)
  {
    var tok, v := toks[0], toks[1];
    assert tok == ManifestPathFlag;
    var mp := ResolveManifest(host.cwd, v);
    CliSteps.ManifestPathPairStep(toks, acc, host);
    var next := acc.(all := acc.all + [tok, v], manifestPath := mp);
    SeqFacts.AppendedTail(acc.all, [tok, v]);
    CliSteps.ManifestPathPairForwarded(v, e, acc2, host);
    assert Replayed(next, acc2, [tok, v]) == acc2.(all := acc2.all + [tok, v], manifestPath := mp);
  }

  lemma ReplayTargetPair<T, S>(toks: seq<string>, acc: Args<T, S>, acc2: Args<T, S>, e: seq<string>, host: Host<T, S>)
    requires 2 <= |toks| && Classify(toks[0]).TargetPair?
    requires Agrees(acc, acc2)
    ensures Replays(acc, Step(toks, acc, host).next, acc2, e, host)
  {
    var tok, v := toks[0], toks[1];
    assert tok == TargetFlag;
    var t := Some(host.resolveTarget(v));
    CliSteps.TargetPairStep(toks, acc, host);
    var next := acc.(all := acc.all + [tok, v], target := t);
    SeqFacts.AppendedTail(acc.all, [tok, v]);
    CliSteps.TargetPairForwarded(v, e, acc2, host);
    assert Replayed(next, acc2, [tok, v]) == acc2.(all := acc2.all + [tok, v], target := t);
  }

  lemma ReplayTargetDirPair<T, S>(toks: seq<string>, acc: Args<T, S>, acc2: Args<T, S>, e: seq<string>, host: Host<T, S>)
    requires 2 <= |toks| && Classify(toks[0]).TargetDirPair?
    requires Agrees(acc, acc2)
    ensures Replays(acc, Step(toks, acc, host).next, acc2, e, host)
  {
    var tok, v := toks[0], toks[1];
    assert tok == TargetDirFlag;
    CliSteps.TargetDirPairStep(toks, acc, host);
    var next := acc.(all := acc.all + [tok, ContainerTargetDir], targetDir := Some(v));
    SeqFacts.AppendedTail(acc.all, [tok, ContainerTargetDir]);
    CliSteps.TargetDirPairRewritten(ContainerTargetDir, e, acc2, host);
    assert Replayed(next, acc2, [tok, ContainerTargetDir]) ==
           acc2.(all := acc2.all + [tok, ContainerTargetDir], targetDir := Some(ContainerTargetDir));
  }

  /** Re-parsing what one turn forwarded reproduces the turn's effect. */
  lemma ReplayTurn<T, S>(toks: seq<string>, acc: Args<T, S>, acc2: Args<T, S>, e: seq<string>, host: Host<T, S>)
    requires 0 < |toks| && !IsUnsplittable(toks[0])
    requires Agrees(acc, acc2)
    requires TakesValue(Classify(toks[0])) && |toks| == 1 ==> e == []
    ensures Replays(acc, Step(toks, acc, host).next, acc2, e, host)
  {
    match Classify(toks[0])
    case Skip => ReplaySilent(toks, acc, acc2, e, host);
    case Channel => ReplaySilent(toks, acc, acc2, e, host);
    case Passthrough => ReplayPassthrough(toks, acc, acc2, e, host);
    case ManifestPathInline => ReplayManifestPathInline(toks, acc, acc2, e, host);
    case TargetInline => ReplayTargetInline(toks, acc, acc2, e, host);
    case TargetDirInline => ReplayTargetDirInline(toks, acc, acc2, e, host);
    case ManifestPathPair =>
      if |toks| == 1 { ReplayDangling(toks, acc, acc2, host); }
      else { ReplayManifestPathPair(toks, acc, acc2, e, host); }
    case TargetPair =>
      if |toks| == 1 { ReplayDangling(toks, acc, acc2, host); }
      else { ReplayTargetPair(toks, acc, acc2, e, host); }
    case TargetDirPair =>
      if |toks| == 1 { ReplayDangling(toks, acc, acc2, host); }
      else { ReplayTargetDirPair(toks, acc, acc2, e, host); }
  }

  /** One turn of the pass, named: the state it ends in and the tokens left. */
  lemma TurnParts<T, S>(toks: seq<string>, acc: Args<T, S>, host: Host<T, S>)
    returns (next: Args<T, S>, rest: seq<string>)
    requires 0 < |toks| && !IsUnsplittable(toks[0])
    ensures Step(toks, acc, host).Advance? && next == Step(toks, acc, host).next
    ensures |rest| < |toks| && Scan(toks, acc, host) == Scan(rest, next, host)
    ensures |acc.all| <= |next.all| && next.all[..|acc.all|] == acc.all
    ensures TakesValue(Classify(toks[0])) && |toks| == 1 ==> rest == []
  {
    var st := Step(toks, acc, host);
    next := st.next;
    rest := toks[st.width..];
    CliSteps.ScanUnfold(toks, acc, host);
    StepExtends(toks, acc, host);
  }

  /** Re-parsing the forwarded list reproduces the forwarded list and every
      field, except that the channel is gone and the target directory reads
      as the container directory. */
  lemma {:induction false} ReparseForwarded<T, S>(toks: seq<string>, acc: Args<T, S>, acc2: Args<T, S>, host: Host<T, S>)
    requires Scan(toks, acc, host).Parsed?
    requires Agrees(acc, acc2)
    ensures var e := Emitted(toks, acc, host);
            Scan(e, acc2, host) == Parsed(Replayed(Scan(toks, acc, host).args, acc2, e))
    decreases |toks|
  {
    var r := Scan(toks, acc, host).args;
    if |toks| == 0 {
      assert r == acc;
      SeqFacts.DropAll(acc.all, |acc.all|);
      SeqFacts.ConcatEmpty(acc.all[|acc.all|..], acc2.all);
      assert Replayed(r, acc2, []) == acc2;
    } else {
      var next, rest := TurnParts(toks, acc, host);
      var c := next.all[|acc.all|..];
      var acc3 := Replayed(next, acc2, c);
      ReparseForwarded(rest, next, acc3, host);
      ReparseTurn(toks, acc, acc2, host, next, rest);
    }
  }

  /** The step case of `ReparseForwarded`: one turn replayed, then the rest
      re-parsed as the induction hypothesis says. */
  lemma ReparseTurn<T, S>(toks: seq<string>, acc: Args<T, S>, acc2: Args<T, S>, host: Host<T, S>,
                          next: Args<T, S>, rest: seq<string>)
    requires 0 < |toks| && !IsUnsplittable(toks[0]) && Agrees(acc, acc2)
    requires Step(toks, acc, host).Advance? && next == Step(toks, acc, host).next
    requires Scan(toks, acc, host) == Scan(rest, next, host) && Scan(rest, next, host).Parsed?
    requires |acc.all| <= |next.all| && next.all[..|acc.all|] == acc.all
    requires TakesValue(Classify(toks[0])) && |toks| == 1 ==> rest == []
    requires var e := Emitted(rest, next, host);
             var acc3 := Replayed(next, acc2, next.all[|acc.all|..]);
             Scan(e, acc3, host) == Parsed(Replayed(Scan(rest, next, host).args, acc3, e))
    ensures var e := Emitted(toks, acc, host);
            Scan(e, acc2, host) == Parsed(Replayed(Scan(toks, acc, host).args, acc2, e))
  {
    var r := Scan(rest, next, host).args;
    var c := next.all[|acc.all|..];
    ScanExtends(rest, next, host);
    var e' := r.all[|next.all|..];
    SeqFacts.SplitAfterPrefix(r.all, next.all, |acc.all|);
    if rest == [] {
      assert r == next;
      SeqFacts.DropAll(next.all, |next.all|);
    }
    ReplayTurn(toks, acc, acc2, e', host);
    var acc3 := Replayed(next, acc2, c);
    SeqFacts.ConcatAssoc(acc2.all, c, e');
    assert Replayed(r, acc3, e') == Replayed(r, acc2, c + e');
  }
}

=== FILE: cli_steps.dfy ===
/** What each kind of top-level token does to the forwarded list and to the
    fields of the argument classifier. */
module CliSteps {
  import opened Optional
  import Paths
  import opened Cli
  import SeqFacts

  // ---------------------------------------------------------------------
  // The text after `=` in the inline flag forms
  // ---------------------------------------------------------------------

  /** When `s` starts with a prefix whose only `sep` is its last character,
      `splitn(2, sep).nth(1)` is everything after that prefix. */
  lemma AfterFirstOfPrefix(s: string, prefix: string, sep: char)
    requires StartsWith(s, prefix) && 0 < |prefix|
    requires prefix[|prefix| - 1] == sep && sep !in prefix[..|prefix| - 1]
    ensures AfterFirst(s, sep) == Some(s[|prefix|..])
  {
    var p := |prefix| - 1;
    assert s[p] == sep by { assert s[..|prefix|][p] == s[p]; }
    forall j | 0 <= j < p
      ensures s[j] != sep
    {
      assert s[j] == prefix[..p][j] by { assert s[..|prefix|][j] == s[j]; }
    }
    var r := AfterFirst(s, sep);
    var k := |s| - |r.value| - 1;
    forall j | 0 <= j < k
      ensures s[j] != sep
    {
      assert s[..k][j] == s[j];
    }
    assert k == p;
  }

  /** The value of `--manifest-path=V`, `--target=V` and `--target-dir=V`
      is exactly V, even when V itself contains `=`. */
  lemma InlineValue(tok: string, flag: string)
    requires flag == ManifestPathFlag || flag == TargetFlag || flag == TargetDirFlag
    requires StartsWith(tok, flag + "=")
    ensures AfterFirst(tok, '=') == Some(tok[|flag| + 1..])
  {
    assert (flag + "=")[..|flag|] == flag;
    AfterFirstOfPrefix(tok, flag + "=", '=');
  }

  /** Each flag, on its own or with `=`, is recognised by its own rule. */
  lemma FlagRules(tok: string)
    ensures tok == ManifestPathFlag ==> Classify(tok).ManifestPathPair?
    ensures tok == TargetFlag ==> Classify(tok).TargetPair?
    ensures tok == TargetDirFlag ==> Classify(tok).TargetDirPair?
    ensures StartsWith(tok, ManifestPathFlag + "=") ==> Classify(tok).ManifestPathInline?
    ensures StartsWith(tok, TargetFlag + "=") ==> Classify(tok).TargetInline?
    ensures StartsWith(tok, TargetDirFlag + "=") ==> Classify(tok).TargetDirInline?
  {
    var mp, mpEq := ManifestPathFlag, ManifestPathFlag + "=";
    var t, tEq := TargetFlag, TargetFlag + "=";
    var td, tdEq := TargetDirFlag, TargetDirFlag + "=";
    assert mp[2] == mpEq[2] == 'm' && t[2] == tEq[2] == td[2] == tdEq[2] == 't';
    assert tEq[8] == '=' && td[8] == tdEq[8] == '-';
    assert |t| == 8 && |td| == 12 && |mp| == 15 && |tEq| == 9 && |tdEq| == 13 && |mpEq| == 16;
    if StartsWith(tok, tdEq) {
      assert tok[2] == 't' && tok[8] == '-' && tok[0] == '-';
    }
    if StartsWith(tok, tEq) {
      assert tok[2] == 't' && tok[8] == '=' && tok[0] == '-';
    }
    if StartsWith(tok, mpEq) {
      assert tok[2] == 'm' && tok[0] == '-';
    }
    if tok == td {
      assert tok[2] == 't' && tok[8] == '-' && tok[0] == '-';
    }
    if tok == t {
      assert tok[2] == 't' && tok[0] == '-';
    }
  }

  /** The tokens that consume the following token are exactly the three
      bare flags, compared as whole texts. */
  lemma TakesValueExactly(tok: string)
    ensures TakesValue(Classify(tok)) <==> tok == ManifestPathFlag || tok == TargetFlag || tok == TargetDirFlag
  {
    FlagRules(tok);
  }

  /** One turn of the loop followed by the rest of the pass. */
  lemma ScanUnfold<T, S>(toks: seq<string>, acc: Args<T, S>, host: Host<T, S>)
    requires 0 < |toks| && Step(toks, acc, host).Advance?
    ensures var st := Step(toks, acc, host);
            Scan(toks, acc, host) == Scan(toks[st.width..], st.next, host)
  {
  }

  /** A turn of width `w` ending in `next`, followed by the pass over `rest`. */
  lemma TurnThen<T, S>(toks: seq<string>, acc: Args<T, S>, host: Host<T, S>,
                       w: nat, next: Args<T, S>, rest: seq<string>)
    requires 0 < |toks| && Step(toks, acc, host) == Advance(w, next)
    requires w <= |toks| && toks[w..] == rest
    ensures Scan(toks, acc, host) == Scan(rest, next, host)
  {
    ScanUnfold(toks, acc, host);
  }

  // ---------------------------------------------------------------------
  // What one turn does, rule by rule
  // ---------------------------------------------------------------------

  lemma ChannelStep<T, S>(toks: seq<string>, acc: Args<T, S>, host: Host<T, S>)
    requires 0 < |toks| && toks[0] != "" && toks[0][0] == '+'
    ensures Step(toks, acc, host) == Advance(1, acc.(channel := Some(toks[0][1..])))
  {
  }

  lemma ManifestPathPairStep<T, S>(toks: seq<string>, acc: Args<T, S>, host: Host<T, S>)
    requires 2 <= |toks| && toks[0] == ManifestPathFlag
    ensures Step(toks, acc, host) ==
            Advance(2, acc.(all := acc.all + [ManifestPathFlag, toks[1]],
                            manifestPath := ResolveManifest(host.cwd, toks[1])))
  {
    FlagRules(toks[0]);
  }

  lemma ManifestPathInlineStep<T, S>(toks: seq<string>, acc: Args<T, S>, host: Host<T, S>)
    requires 0 < |toks| && StartsWith(toks[0], ManifestPathFlag + "=")
    ensures Step(toks, acc, host) ==
            Advance(1, acc.(all := acc.all + [toks[0]],
                            manifestPath := ResolveManifest(host.cwd, toks[0][|ManifestPathFlag| + 1..])))
  {
    FlagRules(toks[0]);
    InlineValue(toks[0], ManifestPathFlag);
  }

  lemma TargetPairStep<T, S>(toks: seq<string>, acc: Args<T, S>, host: Host<T, S>)
    requires 2 <= |toks| && toks[0] == TargetFlag
    ensures Step(toks, acc, host) ==
            Advance(2, acc.(all := acc.all + [TargetFlag, toks[1]],
                            target := Some(host.resolveTarget(toks[1]))))
  {
    FlagRules(toks[0]);
  }

  lemma TargetInlineStep<T, S>(toks: seq<string>, acc: Args<T, S>, host: Host<T, S>)
    requires 0 < |toks| && StartsWith(toks[0], TargetFlag + "=")
    ensures Step(toks, acc, host) ==
            Advance(1, acc.(all := acc.all + [toks[0]],
                            target := Some(host.resolveTarget(toks[0][|TargetFlag| + 1..]))))
  {
    FlagRules(toks[0]);
    InlineValue(toks[0], TargetFlag);
  }

  lemma TargetDirPairStep<T, S>(toks: seq<string>, acc: Args<T, S>, host: Host<T, S>)
    requires 2 <= |toks| && toks[0] == TargetDirFlag
    ensures Step(toks, acc, host) ==
            Advance(2, acc.(all := acc.all + [TargetDirFlag, ContainerTargetDir],
                            targetDir := Some(toks[1])))
  {
    FlagRules(toks[0]);
  }

  lemma TargetDirInlineStep<T, S>(toks: seq<string>, acc: Args<T, S>, host: Host<T, S>)
    requires 0 < |toks| && StartsWith(toks[0], TargetDirFlag + "=")
    ensures Step(toks, acc, host) ==
            Advance(1, acc.(all := acc.all + [TargetDirFlag + "=" + ContainerTargetDir],
                            targetDir := Some(toks[0][|TargetDirFlag| + 1..])))
  {
    FlagRules(toks[0]);
    InlineValue(toks[0], TargetDirFlag);
  }

  lemma DanglingStep<T, S>(toks: seq<string>, acc: Args<T, S>, host: Host<T, S>)
    requires |toks| == 1 && TakesValue(Classify(toks[0]))
    ensures Step(toks, acc, host) == Advance(1, acc.(all := acc.all + [toks[0]]))
  {
  }

  /** The fields a forwarded token leaves behind. */
  function PassedThrough<T, S>(tok: string, acc: Args<T, S>, host: Host<T, S>): Args<T, S>
    requires tok != ""
  {
    acc.(all := acc.all + [tok],
         subcommand := if tok[0] != '-' && acc.subcommand.None?
                       then Some(host.classifySubcommand(tok))
                       else acc.subcommand)
  }

  lemma PassthroughStep<T, S>(toks: seq<string>, acc: Args<T, S>, host: Host<T, S>)
    requires 0 < |toks| && Classify(toks[0]).Passthrough?
    ensures Step(toks, acc, host) == Advance(1, PassedThrough(toks[0], acc, host))
  {
  }

  // ---------------------------------------------------------------------
  // One token at a time
  // ---------------------------------------------------------------------

  /** An empty token at top level is dropped and changes nothing. */
  lemma EmptyTokenSkipped<T, S>(rest: seq<string>, acc: Args<T, S>, host: Host<T, S>)
    ensures Scan([""] + rest, acc, host) == Scan(rest, acc, host)
  {
    SeqFacts.ConsParts("", rest);
    assert Step([""] + rest, acc, host) == Advance(1, acc);
    TurnThen([""] + rest, acc, host, 1, acc, rest);
  }

  /** A `+NAME` token sets the channel to NAME (empty for a bare `+`),
      replaces any earlier channel and is not forwarded. */
  lemma ChannelTokenNotForwarded<T, S>(tok: string, rest: seq<string>, acc: Args<T, S>, host: Host<T, S>)
    requires tok != "" && tok[0] == '+'
    ensures Scan([tok] + rest, acc, host) == Scan(rest, acc.(channel := Some(tok[1..])), host)
    ensures tok == "+" ==> Scan([tok] + rest, acc, host) == Scan(rest, acc.(channel := Some("")), host)
  {
    var toks := [tok] + rest;
    SeqFacts.ConsParts(tok, rest);
    ChannelStep(toks, acc, host);
    TurnThen(toks, acc, host, 1, acc.(channel := Some(tok[1..])), rest);
    if tok == "+" {
      assert tok[1..] == "";
    }
  }

  /** `--manifest-path V` is forwarded verbatim, flag and value, and the
      field becomes V resolved against the working directory; with no
      working directory the field is cleared, whatever it held before. */
  lemma ManifestPathPairForwarded<T, S>(v: string, rest: seq<string>, acc: Args<T, S>, host: Host<T, S>)
    ensures Scan([ManifestPathFlag, v] + rest, acc, host) ==
            Scan(rest, acc.(all := acc.all + [ManifestPathFlag, v],
                            manifestPath := ResolveManifest(host.cwd, v)), host)
  {
    var toks := [ManifestPathFlag, v] + rest;
    SeqFacts.PairParts(ManifestPathFlag, v, rest);
    ManifestPathPairStep(toks, acc, host);
    TurnThen(toks, acc, host, 2, acc.(all := acc.all + [ManifestPathFlag, v],
                                      manifestPath := ResolveManifest(host.cwd, v)), rest);
  }

  /** `--manifest-path=V` is forwarded verbatim and the field becomes V
      resolved against the working directory (cleared without one). */
  lemma ManifestPathInlineForwarded<T, S>(tok: string, rest: seq<string>, acc: Args<T, S>, host: Host<T, S>)
    requires StartsWith(tok, ManifestPathFlag + "=")
    ensures Scan([tok] + rest, acc, host) ==
            Scan(rest, acc.(all := acc.all + [tok],
                            manifestPath := ResolveManifest(host.cwd, tok[|ManifestPathFlag| + 1..])), host)
  {
    var toks := [tok] + rest;
    SeqFacts.ConsParts(tok, rest);
    ManifestPathInlineStep(toks, acc, host);
    TurnThen(toks, acc, host, 1, acc.(all := acc.all + [tok],
                                      manifestPath := ResolveManifest(host.cwd, tok[|ManifestPathFlag| + 1..])), rest);
  }

  /** `--target V` is forwarded verbatim and V is resolved, even when V is
      empty or looks like a flag. */
  lemma TargetPairForwarded<T, S>(v: string, rest: seq<string>, acc: Args<T, S>, host: Host<T, S>)
    ensures Scan([TargetFlag, v] + rest, acc, host) ==
            Scan(rest, acc.(all := acc.all + [TargetFlag, v],
                            target := Some(host.resolveTarget(v))), host)
  {
    var toks := [TargetFlag, v] + rest;
    SeqFacts.PairParts(TargetFlag, v, rest);
    TargetPairStep(toks, acc, host);
    TurnThen(toks, acc, host, 2, acc.(all := acc.all + [TargetFlag, v],
                                      target := Some(host.resolveTarget(v))), rest);
  }

  /** `--target=V` is forwarded verbatim and V is resolved. */
  lemma TargetInlineForwarded<T, S>(tok: string, rest: seq<string>, acc: Args<T, S>, host: Host<T, S>)
    requires StartsWith(tok, TargetFlag + "=")
    ensures Scan([tok] + rest, acc, host) ==
            Scan(rest, acc.(all := acc.all + [tok],
                            target := Some(host.resolveTarget(tok[|TargetFlag| + 1..]))), host)
  {
    var toks := [tok] + rest;
    SeqFacts.ConsParts(tok, rest);
    TargetInlineStep(toks, acc, host);
    TurnThen(toks, acc, host, 1, acc.(all := acc.all + [tok],
                                      target := Some(host.resolveTarget(tok[|TargetFlag| + 1..]))), rest);
  }

  /** `--target-dir V` stores the host path V and forwards the flag followed
      by the container directory instead of V. */
  lemma TargetDirPairRewritten<T, S>(v: string, rest: seq<string>, acc: Args<T, S>, host: Host<T, S>)
    ensures Scan([TargetDirFlag, v] + rest, acc, host) ==
            Scan(rest, acc.(all := acc.all + [TargetDirFlag, ContainerTargetDir],
                            targetDir := Some(v)), host)
  {
    var toks := [TargetDirFlag, v] + rest;
    SeqFacts.PairParts(TargetDirFlag, v, rest);
    TargetDirPairStep(toks, acc, host);
    TurnThen(toks, acc, host, 2, acc.(all := acc.all + [TargetDirFlag, ContainerTargetDir],
                                      targetDir := Some(v)), rest);
  }

  /** `--target-dir=V` stores everything after the first `=` and is replaced
      wholesale by `--target-dir=/target`. */
  lemma TargetDirInlineRewritten<T, S>(tok: string, rest: seq<string>, acc: Args<T, S>, host: Host<T, S>)
    requires StartsWith(tok, TargetDirFlag + "=")
    ensures Scan([tok] + rest, acc, host) ==
            Scan(rest, acc.(all := acc.all + [TargetDirFlag + "=" + ContainerTargetDir],
                            targetDir := Some(tok[|TargetDirFlag| + 1..])), host)
  {
    var toks := [tok] + rest;
    SeqFacts.ConsParts(tok, rest);
    TargetDirInlineStep(toks, acc, host);
    TurnThen(toks, acc, host, 1, acc.(all := acc.all + [TargetDirFlag + "=" + ContainerTargetDir],
                                      targetDir := Some(tok[|TargetDirFlag| + 1..])), rest);
  }

  /** A two-token flag that is the last argument is still forwarded and
      leaves every field as it was. */
  lemma DanglingFlagForwarded<T, S>(flag: string, acc: Args<T, S>, host: Host<T, S>)
    requires flag == ManifestPathFlag || flag == TargetFlag || flag == TargetDirFlag
    ensures Scan([flag], acc, host) == Parsed(acc.(all := acc.all + [flag]))
  {
    FlagRules(flag);
    DanglingStep([flag], acc, host);
    TurnThen([flag], acc, host, 1, acc.(all := acc.all + [flag]), []);
  }

  /** Any other token is forwarded verbatim; it becomes the subcommand only
      when it does not start with `-` and no subcommand was seen before. */
  lemma PassthroughForwarded<T, S>(tok: string, rest: seq<string>, acc: Args<T, S>, host: Host<T, S>)
    requires Classify(tok).Passthrough?
    ensures Scan([tok] + rest, acc, host) ==
            Scan(rest, acc.(all := acc.all + [tok],
                            subcommand := if tok[0] != '-' && acc.subcommand.None?
                                          then Some(host.classifySubcommand(tok))
                                          else acc.subcommand), host)
  {
    var toks := [tok] + rest;
    SeqFacts.ConsParts(tok, rest);
    PassthroughStep(toks, acc, host);
    TurnThen(toks, acc, host, 1, PassedThrough(tok, acc, host), rest);
  }
}

=== FILE: env_flag.dfy ===
/** The `CROSS_DOCKER_IN_DOCKER` environment flag and the boolean parsing it
    goes through. */
module EnvFlag {
  import opened Optional

  /** `bool::from_str`: exactly the two lower-case literals parse, to the
      boolean they name; anything else (`True`, `1`, ` true`, the empty
      text) is an error, here None. */
  function ParseBool(s: string): (r: Option<bool>)
    ensures r.Some? <==> s == "true" || s == "false"
    ensures r.Some? ==> (r.value <==> s == "true")
  {
    if s == "true" then Some(true)
    else if s == "false" then Some(false)
    else None
  }

  /** The flag as the parser computes it: an absent (or non-Unicode)
      variable and an unparsable value both fall back to `false`, the
      default of `bool`. */
  function DockerInDocker(value: Option<string>): (r: bool)
    ensures r <==> value == Some("true")
  {
    match value
    case None => false
    case Some(s) =>
      match ParseBool(s)
      case Some(b) => b
      case None => false
  }
}

=== FILE: optional.dfy ===
/** Values that may be missing: a field of the parsed arguments that no
    token has set yet, or a process input that is unavailable. */
module Optional {
  datatype Option<T> = None | Some(value: T)
}

=== FILE: paths.dfy ===
/** Host paths as the argument parser sees them: Unix paths, written as
    character strings. */
module Paths {

  const Separator: char := '/'

  /** A Unix path is absolute when it starts at the root directory. */
  predicate IsAbsolute(p: string) {
    0 < |p| && p[0] == Separator
  }

  /** `PathBuf::join` on Unix: an absolute argument replaces the base;
      otherwise a separator is added unless the base is empty or already
      ends in one, and the argument is appended. */
  function Join(base: string, p: string): (r: string)
    ensures IsAbsolute(p) ==> r == p
    ensures !IsAbsolute(p) ==> |base| + |p| <= |r| <= |base| + |p| + 1
    ensures !IsAbsolute(p) ==> r[..|base|] == base
    ensures |p| <= |r| && r[|r| - |p|..] == p
    ensures IsAbsolute(base) ==> IsAbsolute(r)
  {
    if IsAbsolute(p) then p
    else if |base| == 0 || base[|base| - 1] == Separator then base + p
    else base + [Separator] + p
  }

  /** Joining never doubles the separator and never drops it between two
      non-empty relative components. */
  lemma JoinSeparatesOnce(base: string, p: string)
    requires 0 < |base| && !IsAbsolute(p)
    ensures Join(base, p)[|base| - 1] == Separator || Join(base, p)[|base|] == Separator
    ensures base[|base| - 1] == Separator ==> |Join(base, p)| == |base| + |p|
    ensures base[|base| - 1] != Separator ==> |Join(base, p)| == |base| + |p| + 1
  {
  }
}

=== FILE: seq_facts.dfy ===
/** Facts about slices and concatenation, stated once so that proofs about
    the argument pass can cite them instead of re-deriving them. */
module SeqFacts {

  lemma ConsParts<A>(x: A, rest: seq<A>)
    ensures ([x] + rest)[0] == x && ([x] + rest)[1..] == rest
  {
  }

  lemma PairParts<A>(x: A, y: A, rest: seq<A>)
    ensures ([x, y] + rest)[0] == x && ([x, y] + rest)[1] == y && ([x, y] + rest)[2..] == rest
  {
  }

  lemma DropParts<A>(s: seq<A>, i: nat, w: nat)
    requires i + w <= |s| && i < |s|
    ensures s[i..][0] == s[i] && s[i..][w..] == s[i + w..]
    ensures i + 1 < |s| ==> s[i..][1] == s[i + 1]
  {
  }

  lemma DropAll<A>(s: seq<A>, i: nat)
    requires i == |s|
    ensures s[i..] == []
  {
  }

  /** Dropping `a` elements from `x`, which extends `n`. */
  lemma SplitAfterPrefix<A>(x: seq<A>, n: seq<A>, a: nat)
    requires a <= |n| <= |x| && x[..|n|] == n
    ensures x[a..] == n[a..] + x[|n|..]
  {
    assert x == n + x[|n|..];
  }

  lemma DropOfConcat<A>(a: seq<A>, b: seq<A>, w: nat)
    requires w <= |a|
    ensures (a + b)[w..] == a[w..] + b
  {
  }

  lemma AppendedTail<A>(a: seq<A>, c: seq<A>)
    ensures (a + c)[|a|..] == c && (a + c)[..|a|] == a
  {
  }

  lemma ConcatAssoc<A>(a: seq<A>, b: seq<A>, c: seq<A>)
    ensures a + b + c == a + (b + c)
  {
  }

  lemma ConcatEmpty<A>(a: seq<A>, e: seq<A>)
    requires |a| == 0
    ensures a + e == e && e + a == e
  {
  }

  lemma ConsIndex<A>(x: A, t: seq<A>, k: nat)
    requires k <= |t|
    ensures ([x] + t)[k] == if k == 0 then x else t[k - 1]
  {
  }

  lemma PrefixOfPrefix<A>(a: seq<A>, b: seq<A>, c: seq<A>)
    requires |a| <= |b| <= |c| && b[..|a|] == a && c[..|b|] == b
    ensures c[..|a|] == a
  {
    assert c[..|a|] == c[..|b|][..|a|];
  }

  lemma InDrop<A>(s: seq<A>, w: nat, x: A)
    requires w <= |s| && x in s[w..]
    ensures x in s
  {
    var j :| 0 <= j < |s[w..]| && s[w..][j] == x;
    assert s[w + j] == x;
  }
}
